=== FILE: README.md ===
# Gazetteer entity tagger

A Dafny model of the gazetteer-driven named-entity tagger in
`src/quiz/quiz5.py`. A sentence goes through four stages:

1. **Phrase index** (`create_ac`, module `PatternIndex`). Each gazetteer
   phrase maps to the set of labels registered for it.
2. **Span matching** (`match`, module `SpanMatcher`).
   - The tokens are joined with single spaces.
   - Every occurrence of every registered phrase is found in that text.
   - Character offsets are translated into token indices through a start
     table and an end table.
   - An occurrence that does not start and end on token boundaries is
     dropped.
3. **Overlap resolution** (`remove_overlaps`, module `OverlapResolver`).
   Overlapping candidates are reduced to a set whose token ranges do not
   intersect.
   - An entity with more words beats one with fewer words.
   - Between equal word counts, the lexicographically greater word list
     wins.
   - Between identical word lists, the earlier entity wins.
   - Only a kept entity eliminates others. An entity that lost to a kept
     one no longer competes, so an entity it would have beaten can still be
     kept.
4. **BILOU encoding** (`to_bilou`, module `TagEncoder`). Each token gets one
   tag:
   - `U-` for a one-token entity;
   - `B-`, `I-`, … `L-` for a longer entity;
   - `O` for a token outside every entity.

   The label text is the entity's labels, sorted and joined with commas.

Other modules:
- `Text` holds the string functions the stages share.
  - `' '.join` is `Join`.
  - `str.split()` is `Split`, over Python's whitespace set.
  - The character offsets of tokens in the joined text are `TokenStart` and
    `TokenEnd`.
  - Python's lexicographic ordering of strings and of string lists is
    `StrLess` and `WordsLess`.
- `TagDecoder` reads tags back into entity ranges. Decoding gives back each
  entity's token range and its label text. The phrase text is lost. The
  label set survives only as its comma-joined text, and that text determines
  the set when no label is empty or contains a comma.
- `OverlapAsWritten` follows the two passes of `remove_overlaps` line by
  line, with Python's list iteration over a list that shrinks under it.
- `Tagger` runs the four stages the way the program's demonstration does.

The Aho-Corasick automaton is modelled only as the occurrences it reports.
`Scan` is a naive scanner proved to report exactly the declarative set
`IsOccurrence`: a registered, non-empty phrase equal to the slice of the text
that ends at the reported offset. Results come in order of their end offset
and, at one end, longest first.

`remove_overlaps` mutates its list while it iterates over it, and `to_bilou`
works by string replacement over the whole sentence. Both are modelled by the
behaviour their code aims at:
- `Resolve` is a pure selection policy over the survivors.
- `ToBilou` is a per-token encoder.

The loops of `remove_overlaps` are also modelled as written, in module
`OverlapAsWritten`, including the `ValueError` that a second `tmp.remove` of
the same entity raises. The "Findings" section lists departures of the code
from the intended behaviour for which a concrete input is proved. Each row
names an as-written member and the corrected one. The list is not claimed
to be complete.

## Model

| member | source | states |
|---|---|---|
| PatternIndex.Register | src/quiz/quiz5.py:16-22 | Registering `(span, value)` adds `span` to the keys. The label set of `span` becomes the old labels plus `value`. Every other phrase keeps its labels. |
| PatternIndex.CreateIndex | src/quiz/quiz5.py:9-25 | The index has one key per phrase of the stream. The labels of each phrase are exactly the labels the stream gives it anywhere, so repeated spans get the union of their labels. |
| PatternIndex.RegisterIdempotent | src/quiz/quiz5.py:16-22 | Registering the same pair twice gives the same index as registering it once. |
| PatternIndex.RegisterCommutes | src/quiz/quiz5.py:16-22 | Two registrations give the same index in either order. |
| PatternIndex.CreateIndexOrderFree | src/quiz/quiz5.py:16-22 | Two streams with the same pairs build the same index, whatever their order and repetitions. |
| PatternIndex.CreateIndexRepeat | src/quiz/quiz5.py:16-22 | Appending a pair the stream already holds leaves the index unchanged. |
| Text.Join | src/quiz/quiz5.py:55 | `' '.join(ws)`: the tokens with exactly one space between neighbours. |
| Text.TokenStart | src/quiz/quiz5.py:47-52 | Token `i`'s start offset in the joined text, the key `smap` gives it. |
| Text.TokenEnd | src/quiz/quiz5.py:47-52 | Token `i`'s exclusive end offset in the joined text, the key `emap` gives it. |
| Text.IsSpace | src/quiz/quiz5.py:80 | The characters `str.split()` separates words at: Python's `str.isspace` set, namely the space, tab to carriage return, the four information separators U+001C-U+001F, U+0085, U+00A0, U+1680, U+2000-U+200A, U+2028, U+2029, U+202F, U+205F and U+3000. |
| Text.WordLength | src/quiz/quiz5.py:80 | The length of the leading run of non-whitespace characters. Everything before it is non-whitespace; the character at it, if any, is whitespace. |
| Text.Split | src/quiz/quiz5.py:80 | Every element of `str.split()` is a non-empty run with no whitespace. |
| Text.SplitWord | src/quiz/quiz5.py:80 | A string with no whitespace splits into itself alone. |
| Text.SplitJoin | src/quiz/quiz5.py:55 | Splitting the space-join of whitespace-free, non-empty tokens gives back the tokens. |
| Text.JoinAppend | src/quiz/quiz5.py:55 | Joining two non-empty lists is joining each and putting one space between them. |
| Text.JoinPrefixLength | src/quiz/quiz5.py:47-52 | The join of the first `e` tokens ends where token `e - 1` ends. |
| Text.TokenStartStep | src/quiz/quiz5.py:49-52 | The next token starts one character after this token ends. |
| Text.TokenStartMonotone | src/quiz/quiz5.py:47-52 | An earlier token ends before a later token starts, and starts before it. |
| Text.TokenIndexOrder | src/quiz/quiz5.py:47-52 | The offsets give the tokens back their order. An earlier end or an earlier start means an earlier token, and equal ends mean the same token. |
| Text.JoinPrefix | src/quiz/quiz5.py:55 | The join of a prefix of the tokens is a prefix of the whole join, followed by a space when tokens remain. |
| Text.JoinSuffix | src/quiz/quiz5.py:55 | From token `s`'s start offset, the join reads as the join of tokens `s..`. |
| Text.JoinSlice | src/quiz/quiz5.py:55-63 | The text between token `s`'s start and token `e - 1`'s end is the join of tokens `s..e`. |
| Text.TokenLayout | src/quiz/quiz5.py:47-55 | Token `i` appears verbatim at its offsets. Exactly one space follows it unless it is the last token; the last token ends the text. |
| Text.LexLess | src/quiz/quiz5.py:98 | Python's `<` on sequences: the first differing element decides, and a proper prefix is smaller. |
| Text.StrLess | src/quiz/quiz5.py:98 | Python's `<` on strings, code point by code point. |
| Text.WordsLess | src/quiz/quiz5.py:98 | Python's `<` on lists of strings, which `match1[0].split() > match0[0].split()` uses. |
| Text.LexAsymmetric | src/quiz/quiz5.py:98 | List comparison over a strict total order is asymmetric. |
| Text.LexTransitive | src/quiz/quiz5.py:98 | List comparison over a strict total order is transitive. |
| Text.LexConnected | src/quiz/quiz5.py:98 | Of two different lists, one compares less than the other. |
| Text.LexStrictTotal | src/quiz/quiz5.py:98 | Lexicographic comparison over a strict total order is itself a strict total order. |
| Text.StrLessIrreflexive | src/quiz/quiz5.py:98 | No string is less than itself. |
| Text.StrLessTransitive | src/quiz/quiz5.py:98 | String comparison is transitive. |
| Text.StrLessOrder | src/quiz/quiz5.py:98 | String comparison by code points is a strict total order. |
| Text.WordsLessOrder | src/quiz/quiz5.py:98 | Comparison of word lists, as `split() > split()` does it, is a strict total order. |
| SpanMatcher.IsOccurrence | src/quiz/quiz5.py:57 | What the automaton reports: a registered, non-empty phrase that the text spells just before the reported end offset. |
| SpanMatcher.EndingAt | src/quiz/quiz5.py:57 | The candidates ending at one offset are exactly the occurrences of registered phrases that end there and are no longer than the bound, longest first. |
| SpanMatcher.ScanBefore | src/quiz/quiz5.py:57 | The order in which the automaton reports two occurrences: by end offset, and at one end the longer first. |
| SpanMatcher.ScanUpTo | src/quiz/quiz5.py:57 | Exactly the occurrences that end at or before the offset, ordered by end and, at one end, longest first. |
| SpanMatcher.Scan | src/quiz/quiz5.py:57 | The automaton's output: every occurrence of every registered phrase and nothing else, ordered by end offset and, at one end, longest first. |
| SpanMatcher.OffsetMaps | src/quiz/quiz5.py:47-52 | `smap` maps each token's start offset to its index and holds no other key. `emap` maps each token's exclusive end offset to its index and holds no other key. |
| SpanMatcher.IsAlignedMatch | src/quiz/quiz5.py:58-63 | A word-aligned occurrence: tokens `start..end` joined by spaces spell a registered non-empty phrase, and the entity carries that phrase's whole label set. |
| SpanMatcher.AlignedOccurrence | src/quiz/quiz5.py:58-63 | An occurrence from token `s`'s start to token `e`'s end has `s <= e` and spells tokens `s..e + 1`. |
| SpanMatcher.TokenRangeOrder | src/quiz/quiz5.py:47-52 | Token `s` starting no later than token `e` ends, for a non-empty stretch of text, means `s <= e`. |
| SpanMatcher.TokenRangeText | src/quiz/quiz5.py:55-63 | The text from token `s`'s start to token `e`'s end is the join of tokens `s..e + 1`. |
| SpanMatcher.AlignedEntity | src/quiz/quiz5.py:58-63 | Such an occurrence becomes a word-aligned match `(phrase, s, e + 1, labels)` with the phrase's full label set. |
| SpanMatcher.AlignedMatchOf | src/quiz/quiz5.py:63 | A registered non-empty phrase that tokens `s..e` spell gives the aligned match `(phrase, s, e, labels)`. |
| SpanMatcher.AlignedAsOccurrence | src/quiz/quiz5.py:55-57 | Tokens `s..e` that spell a registered phrase are an occurrence of it in the joined text, starting at token `s`'s offset. |
| SpanMatcher.MatchComplete | src/quiz/quiz5.py:57-63 | If the loop kept every occurrence whose ends are table keys, then every word-aligned occurrence of a registered phrase is among the results. |
| SpanMatcher.MatchCompleteAt | src/quiz/quiz5.py:59-63 | One reported aligned occurrence yields the entity of its tokens. |
| SpanMatcher.KeptGrows | src/quiz/quiz5.py:63 | Appending to the results keeps every occurrence that was already kept. |
| SpanMatcher.KeepAligned | src/quiz/quiz5.py:57-63 | The loop: each result is a word-aligned match carrying its phrase's labels, and each occurrence with both ends in the tables was kept. The results come ordered by last token and, at one last token, by first token. |
| SpanMatcher.Precedes | src/quiz/quiz5.py:63 | The order of `match`'s results: by end token, and at one end token by start token. |
| SpanMatcher.EntityBefore | src/quiz/quiz5.py:57-63 | An entity lies before an occurrence in the text: its last token ends earlier, or ends at the same offset and its first token starts earlier. |
| SpanMatcher.KeepOneOrdered | src/quiz/quiz5.py:57-63 | One pass of the loop keeps the results ordered, and every result lies before the next occurrence to come. |
| SpanMatcher.KeepOneOrderedSkip | src/quiz/quiz5.py:60-62 | The same, when the occurrence is dropped because an end is not a table key. |
| SpanMatcher.KeepOneOrderedAt | src/quiz/quiz5.py:63 | The same, when the occurrence becomes the entity of its first and last tokens. |
| SpanMatcher.OrderedEntityAppend | src/quiz/quiz5.py:63 | Appending an occurrence's entity keeps the results ordered and before the next occurrence. |
| SpanMatcher.OrderedAppend | src/quiz/quiz5.py:63 | Appending an occurrence's entity after entries that lie before the occurrence keeps the results ordered. |
| SpanMatcher.BeforeNext | src/quiz/quiz5.py:57 | An entity that lies before one occurrence lies before every occurrence reported after it. |
| SpanMatcher.BeforeAppend | src/quiz/quiz5.py:63 | Appending an entry that lies before an occurrence keeps every entry before it. |
| SpanMatcher.KeepOne | src/quiz/quiz5.py:58-63 | One pass of the loop body: the entity `(phrase, smap[start], emap[end] + 1, labels)` is appended when both offsets are table keys, and nothing is appended otherwise. |
| SpanMatcher.KeepOneStep | src/quiz/quiz5.py:57-63 | One pass of the loop keeps both invariants: every result is an aligned match, and every occurrence seen so far with both ends in the tables was kept. |
| SpanMatcher.KeepOneAligned | src/quiz/quiz5.py:58-63 | One pass of the loop appends only aligned matches. |
| SpanMatcher.KeepOneResult | src/quiz/quiz5.py:60-63 | One pass appends the occurrence's entity exactly when both of its ends are table keys, and otherwise leaves the results alone. |
| SpanMatcher.AlignedEntityAppend | src/quiz/quiz5.py:63 | Appending the entity of an aligned occurrence keeps every result an aligned match. |
| SpanMatcher.KeepOneKept | src/quiz/quiz5.py:60-63 | After one pass, every occurrence seen so far, this one included, was kept when both its ends are table keys. |
| SpanMatcher.KeptAppend | src/quiz/quiz5.py:63 | Appending occurrence `k`'s entity keeps every occurrence up to and including `k`. |
| SpanMatcher.AlignedAppend | src/quiz/quiz5.py:63 | Appending an aligned match to aligned matches gives aligned matches. |
| SpanMatcher.Match | src/quiz/quiz5.py:37-65 | Sound: every result `(span, start, end, labels)` has `0 <= start < end <= len(tokens)`, `span == ' '.join(tokens[start:end])` and the span's full label set. Complete: every boundary-aligned occurrence of a registered phrase is reported. The results are ordered by end token and, at one end token, by start token, so no entity is reported twice. No tokens give no results. |
| SpanMatcher.AlignedMatchWords | src/quiz/quiz5.py:57-63 | When every token is non-empty and whitespace-free, a match's span splits into exactly its tokens, so its word count is `end - start`. |
| OverlapResolver.Overlap | src/quiz/quiz5.py:79 | Two entities share at least one token. |
| OverlapResolver.Words | src/quiz/quiz5.py:80 | The words of an entity's span, `span.split()`, whose count line 80 compares and whose list line 98 compares. |
| OverlapResolver.Beats | src/quiz/quiz5.py:80-85 | An entity with more words beats one with fewer; at equal word counts the lexicographically greater word list wins (line 98). |
| OverlapResolver.Outranks | src/quiz/quiz5.py:80-85 | Precedence between entries: one beats the other, or both have the same words and the earlier entry wins (line 85 keeps `e0`). |
| OverlapResolver.Survives | src/quiz/quiz5.py:72-85 | An entry is kept when every overlapping entry that takes precedence over it is itself discarded; a discarded entry is skipped by line 74 and eliminates nothing. |
| OverlapResolver.OutranksIrreflexive | src/quiz/quiz5.py:80-85 | No entry takes precedence over itself. |
| OverlapResolver.OutranksTransitive | src/quiz/quiz5.py:80-85 | Precedence is transitive. |
| OverlapResolver.AboveShrinks | src/quiz/quiz5.py:80-85 | An entry that takes precedence over entry `i` has strictly fewer entries above it, which makes survival well founded. |
| OverlapResolver.BeatsAsymmetric | src/quiz/quiz5.py:80-85 | If `a` beats `b` then `b` does not beat `a`, and their word lists differ. |
| OverlapResolver.OutranksTotal | src/quiz/quiz5.py:79-85 | Of two different entries, one always takes precedence. |
| OverlapResolver.SurvivorsDisjoint | src/quiz/quiz5.py:79-99 | Two surviving entries never share a token. |
| OverlapResolver.KeepFrom | src/quiz/quiz5.py:72-99 | The survivors from position `k` on: each result is a surviving input entry, every surviving entry is included, and no two results overlap. |
| OverlapResolver.KeepFromStart | src/quiz/quiz5.py:72-92 | The survivors do not overlap. An entry left out overlaps a kept entry that takes precedence over it. Lists of at most one entity are kept whole. |
| OverlapResolver.Resolve | src/quiz/quiz5.py:68-101 | The result holds exactly the surviving input entries, and no two of them share a token. An entry that no overlapping entry takes precedence over is kept. An entry that is dropped overlaps a kept entry that takes precedence over it, so nothing more could be added without an overlap. An empty or one-element input comes back unchanged. |
| OverlapResolver.KeepFromStep | src/quiz/quiz5.py:94-99 | A surviving entry is kept, in front of the survivors after it. |
| OverlapResolver.KeepFromSkip | src/quiz/quiz5.py:74 | A discarded entry is left out and changes nothing after it. |
| OverlapResolver.KeepFromAll | src/quiz/quiz5.py:94-99 | When every entry survives, every entry is kept, in order. |
| OverlapResolver.ResolveKeepsDisjoint | src/quiz/quiz5.py:94-99 | Input with no overlaps comes back unchanged. |
| OverlapResolver.ResolveIdempotent | src/quiz/quiz5.py:68-101 | Resolving twice is resolving once. |
| OverlapResolver.Unrivalled | src/quiz/quiz5.py:72-88 | An entry survives when no other overlapping entry takes precedence over it. |
| OverlapResolver.Unbeaten | src/quiz/quiz5.py:80-85 | An entry survives when every other overlapping entry has fewer words. |
| OverlapResolver.SurvivesPast | src/quiz/quiz5.py:74 | An entry survives when the only overlapping entry with at least as many words is discarded. |
| OverlapResolver.Eliminated | src/quiz/quiz5.py:80-84 | An entry overlapping a surviving entry that takes precedence over it is discarded. |
| OverlapResolver.ResolvePair | src/quiz/quiz5.py:79-85 | Of two overlapping entities, only the one that takes precedence is kept. |
| OverlapResolver.ChainSurvivors | src/quiz/quiz5.py:72-88 | In the chain `x`, `b1 b2 b3`, `b3 a4`, `a4`, entries 0, 1 and 3 survive and entry 2 does not. |
| OverlapResolver.KeepFromChain | src/quiz/quiz5.py:72-88 | With entries 0, 1 and 3 surviving and entry 2 discarded, exactly entries 0, 1 and 3 are kept, in order. |
| OverlapResolver.ChainResolve | src/quiz/quiz5.py:72-88 | `b3 a4` beats `a4`, but it loses to `b1 b2 b3`; once discarded it no longer competes, so `a4` is kept beside `x` and `b1 b2 b3`. |
| OverlapResolver.DiscardedDoesNotBlock | src/quiz/quiz5.py:72-88 | The same for any words: `x`, `b1 b2 b3`, `b3 a4`, `a4` resolve to `x`, `b1 b2 b3`, `a4`. |
| OverlapResolver.SecondPassRemoves | src/quiz/quiz5.py:96-98 | The removal test of the second pass as written: `match1` differs from `match0`, starts anywhere from `match0`'s start up to and including its exclusive end, and has a greater word list. |
| OverlapResolver.RemoveOverlapsPairAsWritten | src/quiz/quiz5.py:72-99 | The code as written on a two-entity list: one or two entities remain, all from the input. Both remain exactly when neither passes the removal test of line 97-98 against the other. |
| OverlapResolver.SplitPair | src/quiz/quiz5.py:80 | Two words joined by one space split into those two words. |
| OverlapResolver.SplitTriple | src/quiz/quiz5.py:80 | Three words joined by single spaces split into those three words. |
| OverlapResolver.AdjacentSpansAsWritten | src/quiz/quiz5.py:97-99 | Adjacent one-word entities do not overlap, yet as written the lexicographically smaller one is removed. |
| OverlapResolver.AdjacentSpansResolved | src/quiz/quiz5.py:94-99 | The policy keeps both adjacent entities. |
| OverlapResolver.CrossingSpansAsWritten | src/quiz/quiz5.py:75-77 | Two-word entities sharing one token both survive as written when the later one compares smaller. |
| OverlapResolver.CrossingSpansResolved | src/quiz/quiz5.py:94-99 | The policy keeps only the one whose word list compares greater. |
| OverlapResolver.ShorterInsideAsWritten | src/quiz/quiz5.py:98 | A one-word entity inside a three-word entity removes it as written when its word compares greater than the first word. |
| OverlapResolver.ShorterInsideResolved | src/quiz/quiz5.py:80 | The policy keeps the three-word entity only. |
| OverlapResolver.GeorgiaKorea | src/quiz/quiz5.py:97-99 | "Georgia" and "Korea" on adjacent tokens: as written "Georgia" is removed; the policy keeps both. |
| OverlapResolver.SouthKoreaTown | src/quiz/quiz5.py:75-99 | "South Korea" and "Korea Town" over "South Korea Town": as written both are kept; the policy keeps "South Korea". |
| OverlapResolver.NewYorkCityInner | src/quiz/quiz5.py:97-99 | "York" inside "New York City": as written only "York" is kept; the policy keeps "New York City". |
| OverlapAsWritten.FirstInner | src/quiz/quiz5.py:73-88 | The inner loop of the first pass for one `e0`. It only appends entities of the input to `overlaps` and `tmp`, and never removes any. |
| OverlapAsWritten.FirstPass | src/quiz/quiz5.py:72-88 | The first pass. `overlaps` and `tmp` only grow, and only by entities of the input. |
| OverlapAsWritten.FirstIndex | src/quiz/quiz5.py:99 | The position `tmp.remove` cuts at: an entry equal to the argument, with no equal entry before it. |
| OverlapAsWritten.ConsCut | src/quiz/quiz5.py:99 | When the head differs from `x`, removing the first `x` keeps the head and removes the first `x` of the tail. |
| OverlapAsWritten.MultisetCut | src/quiz/quiz5.py:99 | Cutting out one entry takes exactly one occurrence of it out of the multiset of entries. |
| OverlapAsWritten.RemoveFirst | src/quiz/quiz5.py:99 | `tmp.remove(match0)`: the first entry equal to `match0` is cut out, and the entries before and after it stay, in their order. The list loses one entry, and one occurrence of `match0` is gone. |
| OverlapAsWritten.SecondInner | src/quiz/quiz5.py:95-99 | The inner loop of the second pass. When it does not raise, the list is no longer than before and holds no entity more often than before. |
| OverlapAsWritten.SecondPass | src/quiz/quiz5.py:94-99 | The second pass. When it does not raise, the list holds no entity more often than before. |
| OverlapAsWritten.RemoveOverlaps | src/quiz/quiz5.py:68-101 | `remove_overlaps` as written. When it returns, every entity returned is an input entity. A list of at most one entity comes back unchanged. |
| OverlapAsWritten.InnerKeeps | src/quiz/quiz5.py:95-99 | The inner loop removes nothing when no entry displaces `match0`. |
| OverlapAsWritten.PassKeeps | src/quiz/quiz5.py:94-99 | The second pass returns `tmp` unchanged when no entry of it displaces another. |
| OverlapAsWritten.PairAsWritten | src/quiz/quiz5.py:72-99 | On two entities the code returns exactly what OverlapResolver.RemoveOverlapsPairAsWritten gives. |
| OverlapAsWritten.PairFirstPass | src/quiz/quiz5.py:74-78 | On two entities the first pass copies both into `tmp` and lists none under `overlaps`. |
| OverlapAsWritten.PairSecondPassFirst | src/quiz/quiz5.py:94-99 | On two entities the second pass removes the first when the second displaces it. |
| OverlapAsWritten.RemoveOfPair | src/quiz/quiz5.py:99 | On a two-entry list, removing the first entry leaves the second. Removing a second entry that differs from the first leaves the first. |
| OverlapAsWritten.PairInnerFirstKeeps | src/quiz/quiz5.py:95-98 | The inner loop for the first of two entities removes nothing when the second does not displace it. |
| OverlapAsWritten.PairInnerSecond | src/quiz/quiz5.py:95-99 | The inner loop for the second of two entities removes it when the first displaces it, leaving the first alone. |
| OverlapAsWritten.PairSecondPassSecond | src/quiz/quiz5.py:94-99 | Otherwise it removes the second when the first displaces it. |
| OverlapAsWritten.SplitFour | src/quiz/quiz5.py:80 | Four words joined by single spaces split into those four words. |
| OverlapAsWritten.JoinFour | src/quiz/quiz5.py:55 | `' '.join` of four words puts one space between each pair of neighbours. |
| OverlapAsWritten.MiddleLoses | src/quiz/quiz5.py:72-88 | Of three entities, when the middle one loses to the last on word count and the first does not overlap the last, the policy keeps the first and the last. |
| OverlapAsWritten.LoserStays | src/quiz/quiz5.py:79-83 | When `w` starts inside `y` and has more words, the first pass over `[x, y, w]` lists `y` under `overlaps` while `tmp` still holds `x`, `y` and `w`. |
| OverlapAsWritten.LoserStaysAsWritten | src/quiz/quiz5.py:79-99 | For `p`, `z a`, `a b c` with `a < z`, all three are returned, although `z a` and `a b c` share a token and `a b c` beats `z a`. |
| OverlapAsWritten.LoserStaysResolved | src/quiz/quiz5.py:80-83 | The policy keeps `p` and `a b c` and drops `z a`. |
| OverlapAsWritten.RemovedTwice | src/quiz/quiz5.py:94-99 | On `[y, x, z]`, when `y` and `z` both displace `x` and nothing displaces `y`, the second pass raises `ValueError`. |
| OverlapAsWritten.RemovedTwiceInner | src/quiz/quiz5.py:95-99 | The inner loop for `x` raises. |
| OverlapAsWritten.RemovedOnce | src/quiz/quiz5.py:99 | `y` displaces `x`: `x` comes off the list, and the loop moves on to index 1 of the shortened list. |
| OverlapAsWritten.RemoveSecond | src/quiz/quiz5.py:99 | `tmp.remove` of the entry at index 1 of a three-entry list whose index 0 differs from it leaves indices 0 and 2. |
| OverlapAsWritten.RemovedAgain | src/quiz/quiz5.py:99 | `z` then displaces `x`, which is no longer in the list, so `tmp.remove` raises. |
| OverlapAsWritten.RemovedTwiceAsWritten | src/quiz/quiz5.py:94-99 | For `c`, `a c b`, `b e f g` with `a < b < c`, `remove_overlaps` raises `ValueError`. |
| OverlapAsWritten.RemovedTwiceResolved | src/quiz/quiz5.py:80-83 | The policy keeps `c` and `b e f g` and drops `a c b`. |
| TagEncoder.LeastLabelOf | src/quiz/quiz5.py:109 | A non-empty label set has a label that no other label precedes. |
| TagEncoder.LeastLabelExists | src/quiz/quiz5.py:109 | The same, as an existence statement. |
| TagEncoder.LeastLabel | src/quiz/quiz5.py:109 | That label is in the set and precedes every other label. |
| TagEncoder.SortedLabels | src/quiz/quiz5.py:109 | The labels in strictly increasing order, each exactly once, nothing else. |
| TagEncoder.SortedCons | src/quiz/quiz5.py:109 | Putting the least label in front of the sorted other labels gives all the labels, sorted, each once. |
| TagEncoder.CommaJoin | src/quiz/quiz5.py:109 | Joining one or more whitespace-free labels with commas gives a single whitespace-free word. |
| TagEncoder.FirstComma | src/quiz/quiz5.py:109 | The position of the first comma of a text, or its length when there is none: no comma comes before it. |
| TagEncoder.FirstCommaAfter | src/quiz/quiz5.py:109 | A comma-free prefix moves the first comma by its own length. |
| TagEncoder.CommaJoinShape | src/quiz/quiz5.py:109 | The comma-joined text of plain labels is empty exactly for no labels; otherwise it starts with the first label, up to the first comma, and the rest after the comma is the text of the other labels. |
| TagEncoder.CommaJoinInjective | src/quiz/quiz5.py:109 | Two lists of plain labels with the same comma-joined text are the same list. |
| TagEncoder.LabelText | src/quiz/quiz5.py:109-116 | The text of a non-empty set of whitespace-free labels is one word, so every tag stays one token. |
| TagEncoder.LabelTextInjective | src/quiz/quiz5.py:109 | Two sets of plain labels with the same label text are equal, so the text determines the set. |
| TagEncoder.SpanTag | src/quiz/quiz5.py:110-116 | Every tag an entity gives is one of the letters `U`, `B`, `I`, `L`, then a dash, then the entity's label text. The letter is `U` exactly for a one-token entity. |
| TagEncoder.TagAt | src/quiz/quiz5.py:118-126 | A token's tag is `O` exactly when no entity covers it. |
| TagEncoder.ToBilou | src/quiz/quiz5.py:104-128 | One tag per token, and `O` exactly on the tokens no entity covers. |
| TagEncoder.TagAtCovered | src/quiz/quiz5.py:108-120 | Among non-overlapping entities, a covered token takes its tag from the entity that covers it. |
| TagEncoder.ToBilouCovered | src/quiz/quiz5.py:108-120 | The same fact for the tag sequence `to_bilou` returns. |
| TagEncoder.ToBilouCoveredAll | src/quiz/quiz5.py:108-120 | The same fact for every entity and covered token at once. |
| TagEncoder.BilouShape | src/quiz/quiz5.py:108-116 | A one-token entity tags its token `U-`. A longer entity tags its first token `B-`, its last `L-`, and the `end - start - 2` tokens between `I-`, all with its label text. |
| TagDecoder.InsideEnd | src/quiz/quiz5.py:115-116 | The first position from `j` on whose tag is not `I-<text>`: every tag before it is. |
| TagDecoder.Decode | src/quiz/quiz5.py:108-116 | Every decoded chunk is a non-empty range inside the tags, starting at or after the decoding position. |
| TagDecoder.InsideEndAt | src/quiz/quiz5.py:115-116 | Given a run of `I-<text>` tags ending at a different tag, `InsideEnd` stops at that tag. |
| TagDecoder.DecodeBlock | src/quiz/quiz5.py:110-116 | A `U-` tag, or a `B-` … `I-` … `L-` run with one label text, decodes to one chunk, and decoding resumes after it. |
| TagDecoder.EntityBlock | src/quiz/quiz5.py:108-116 | An entity's tags, among non-overlapping entities, form one `U-` tag or one `B-` … `I-` … `L-` run with its label text. |
| TagDecoder.DecodeEntity | src/quiz/quiz5.py:108-116 | Decoding from an entity's first token reads exactly that entity and resumes at its end. |
| TagDecoder.CoveredStep | src/quiz/quiz5.py:108-116 | Among non-overlapping entities, one that starts at a boundary also ends at one. Any other entity starting no earlier starts at or after its end. |
| TagDecoder.ChunksCovered | src/quiz/quiz5.py:108-116 | An entity's chunk followed by the chunks from its end are the chunks from its start. |
| TagDecoder.ChunksUncovered | src/quiz/quiz5.py:122-126 | Past an uncovered token, the chunks from the next position are the chunks from this one. |
| TagDecoder.DecodeSkip | src/quiz/quiz5.py:124-126 | An `O` tag decodes to nothing. |
| TagDecoder.UncoveredStep | src/quiz/quiz5.py:122-126 | An uncovered token is tagged `O`. No entity starts there, and none straddles the next position. |
| TagDecoder.DecodeFrom | src/quiz/quiz5.py:104-128 | Decoding from a position no entity straddles gives exactly the chunks of the entities that start there or later. |
| TagDecoder.DecodeFromCovered | src/quiz/quiz5.py:108-116 | The same, at an entity's first token. |
| TagDecoder.DecodeFromUncovered | src/quiz/quiz5.py:122-126 | The same, at a token no entity covers. |
| TagDecoder.DecodeToBilou | src/quiz/quiz5.py:104-128 | Round trip: decoding the tags of non-overlapping entities gives exactly each entity's range and label text. |
| Tagger.TagSentence | src/quiz/quiz5.py:134-139 | The pipeline. Entities are word-aligned gazetteer phrases with all their gazetteer labels, and no two overlap. An aligned occurrence that beats every other aligned occurrence overlapping it is found; one that is not found overlaps a found entity that beats it or has the same words. Each covered token is tagged by its entity. There is one tag per token, `O` exactly on uncovered tokens. An empty sentence gives no entities and no tags. |
| Tagger.ResolvedMatches | src/quiz/quiz5.py:137-138 | Matching followed by resolution gives word-aligned, non-overlapping entities. An aligned occurrence that beats every other aligned occurrence overlapping it is kept; any aligned occurrence left out overlaps a kept one that beats it or has the same words. |
| Tagger.UnchallengedKept | src/quiz/quiz5.py:72-99 | An aligned occurrence that beats every other aligned occurrence overlapping it survives resolution. |
| Tagger.LeftOutBlocked | src/quiz/quiz5.py:72-99 | An aligned occurrence that resolution drops overlaps a kept one that beats it or has the same words. |
| Tagger.MatchPosition | src/quiz/quiz5.py:57-63 | Every aligned occurrence is reported by the matcher, at a first position. |
| Tagger.SingleLabelText | src/quiz/quiz5.py:109 | The label text of a single label is the label itself. |
| Tagger.NestedPhrases | src/quiz/quiz5.py:79-116 | Of `a b` and `a b c` from the same token, only the longer is kept, and it is tagged `B-`, `I-`, `L-`. |
| Tagger.NewYorkCity | src/quiz/quiz5.py:79-116 | Of "New York" and "New York City" only the latter is kept, and it is tagged `B-LOC`, `I-LOC`, `L-LOC`. |

## Left out

- `read_gazetteers` (src/quiz/quiz5.py:28-34) globs a directory, reads files and takes labels from file names. It is I/O. The model takes its output as a sequence of `(span, label)` pairs.
- The Aho-Corasick automaton's internals are left out: failure links, `make_automaton`, and the inclusive end index that line 58 adjusts. It is a foreign library. Only the occurrences it reports are modelled, and not its running time.
- The register-after-finalize error is left out. The code never registers after `make_automaton`, so nothing in it raises such an error.
- `Match` assumes the automaton never reports the empty phrase. A registered empty phrase therefore produces no entity.
- SpanMatcher.Scan fixes the order in which the automaton reports occurrences: by end offset and, at one end, longest first. The order of `match`'s results, which SpanMatcher.Match states, rests on that.
- SpanMatcher.Match returns no entities for an empty index. The code raises `AttributeError` there: `make_automaton` (line 24) builds no automaton when no phrase was added, and `AC.iter` (line 57) then fails.
- OverlapResolver.Resolve is the selection policy that lines 72-99 aim at, not those loops: the entries that survive, where an entry that lost to a kept entry (line 74 skips it from then on) no longer eliminates anything. The loops themselves are OverlapAsWritten.RemoveOverlaps. That covers the duplicate appends to `tmp`, the entries the second pass skips after `tmp.remove`, and the `ValueError` of a second removal. Departures of the code from the policy that a concrete input shows are under "Findings".
- OverlapResolver.Resolve no longer promises that an entity overlapping one with more words is dropped. When the longer entity was itself discarded by a still longer one, the first pass skips it (line 74) and the shorter entity can be kept, as OverlapResolver.ChainResolve shows.
- OverlapResolver.Resolve counts two entities as overlapping when their half-open token ranges intersect. The code's two tests (line 79 and line 97) are one-directional and differ from each other.
- OverlapResolver.Resolve breaks a tie between identical word lists by position, earlier first. The code's first pass keeps the earlier of two equal-length entities (line 85). Its second pass keeps both when the word lists are equal.
- TagEncoder.ToBilou does not model the string-replacement rendering of lines 105-120.
  - `str.replace` can rewrite text inside unrelated tokens.
  - The rendering then re-splits the sentence and compares each token with its original by `index`.
  - The encoder is per token instead: the first entity covering a token decides its tag.
- TagEncoder.LabelText does not model the `str(list(set))` label text of line 109. That text depends on set iteration order and contains spaces when there are several labels, which breaks the `split()` of line 122. The model sorts the labels and joins them with commas.
- TagEncoder.SpanTag measures an entity's width as `end - start`, where the code uses the word count of the span. The two agree when every token is non-empty and whitespace-free (SpanMatcher.AlignedMatchWords).
- TagEncoder.ToBilou gives no fail-fast behaviour for overlapping input. Its per-token guarantees (BilouShape, DecodeToBilou) require non-overlapping entities.
- The `__main__` block (src/quiz/quiz5.py:132-142) prints. The model keeps only its pipeline order, as Tagger.TagSentence.
- `src/quiz/quiz1.py`, `src/quiz/quiz1updated.py`, `src/quiz/quiz2.py` and `src/quiz/quiz3.py` are not part of this model. They are a numeral normaliser, a WordNet wrapper and a probabilistic POS tagger, outside the tagging pipeline.

## Findings

| source | as written | input that shows it | evidently intended | confidence | as-written member | corrected member |
|---|---|---|---|---|---|---|
| src/quiz/quiz5.py:97-99 | `match0[1] <= match1[1] <= match0[2]` also holds when `match1` starts at `match0`'s exclusive end, so adjacent spans are treated as overlapping | tokens `Georgia Korea`; entities `("Georgia", 0, 1)` and `("Korea", 1, 2)`; "Georgia" is removed although the two share no token | only spans that share a token conflict; both are kept | not executed | OverlapResolver.AdjacentSpansAsWritten | OverlapResolver.AdjacentSpansResolved |
| src/quiz/quiz5.py:75-77 | the first pass copies the first entity and its successor without an overlap test; the second pass removes an entity only in favour of one starting at or after it with a greater word list | tokens `South Korea Town`; entities `("South Korea", 0, 2)` and `("Korea Town", 1, 3)`; both are kept and share token 1 | overlapping spans never both survive; "South Korea" wins the lexicographic tie-break | not executed | OverlapResolver.CrossingSpansAsWritten | OverlapResolver.CrossingSpansResolved |
| src/quiz/quiz5.py:98 | `match1[0].split() > match0[0].split()` compares whole word lists, so a shorter span can displace a longer one | tokens `New York City`; entities `("York", 1, 2)` and `("New York City", 0, 3)`; only "York" is kept | the longer span wins (line 80), and word lists only break ties between equal lengths | not executed | OverlapResolver.ShorterInsideAsWritten | OverlapResolver.ShorterInsideResolved |
| src/quiz/quiz5.py:79-83 | when `e1` beats `e0`, line 82 appends `e0` to `overlaps` but leaves it in `tmp`, where an earlier pairing put it; the second pass removes an entity only in favour of a greater word list | tokens `p q z a b c`; entities `("p", 0, 1)`, `("z a", 2, 4)`, `("a b c", 3, 6)`; all three are returned, and the last two share token 3 | an entity that loses in the first pass is dropped, so `("z a", 2, 4)` goes | not executed | OverlapAsWritten.LoserStaysAsWritten | OverlapAsWritten.LoserStaysResolved |
| src/quiz/quiz5.py:94-99 | after `tmp.remove(match0)` the inner loop goes on comparing `match0` with the rest of `tmp`, and a second rival calls `tmp.remove(match0)` again | tokens `a c b e f g`; entities `("c", 1, 2)`, `("a c b", 0, 3)`, `("b e f g", 2, 6)`; the second removal raises `ValueError` | stop comparing `match0` once it is removed; `("c", 1, 2)` and `("b e f g", 2, 6)` are kept | not executed | OverlapAsWritten.RemovedTwiceAsWritten | OverlapAsWritten.RemovedTwiceResolved |

=== FILE: overlap_as_written.dfy ===
/** `remove_overlaps` exactly as written: the first pass over every pair of
    entities with its `break`s and its `overlaps` list, and the second pass,
    which removes entries from `tmp` while it iterates over `tmp`, and whose
    `tmp.remove` raises `ValueError` once its argument is no longer there.
    The policy `OverlapResolver.Resolve` is what this code aims at; the
    lemmas at the end exhibit inputs on which the two part ways. */
module OverlapAsWritten {
  import opened Text
  import opened SpanMatcher
  import opened OverlapResolver

  /** How a call ends: it returns `tmp`, or `tmp.remove` raises. */
  datatype Outcome = Returned(list: seq<Entity>) | ValueError

  /** The two lists the first pass builds. */
  datatype FirstState = FirstState(overlaps: seq<Entity>, tmp: seq<Entity>)

  /** The first pass only ever appends entities of the input. */
  predicate Extends(es: seq<Entity>, st: FirstState, r: FirstState) {
    && st.overlaps <= r.overlaps
    && st.tmp <= r.tmp
    && (forall x :: x in r.overlaps[|st.overlaps|..] ==> x in es)
    && (forall x :: x in r.tmp[|st.tmp|..] ==> x in es)
  }

  /** The inner loop of the first pass (lines 73-88) for `e0 = es[i0]`,
      from `index1 = i1` on. */
  function FirstInner(es: seq<Entity>, i0: nat, i1: nat, st: FirstState): (r: FirstState)
    requires i0 < |es| && i1 <= |es|
    ensures Extends(es, st, r)
    decreases |es| - i1
  {
    if i1 == |es| then st
    else
      var e0, e1 := es[i0], es[i1];
      if i0 >= i1 || e0 in st.overlaps || e1 in st.overlaps then FirstInner(es, i0, i1 + 1, st)
      else if e0 == es[0] then FirstState(st.overlaps, st.tmp + [e0, e1])
      else if e0.start < e1.start < e0.end then
        if |Words(e0)| < |Words(e1)| then FirstState(st.overlaps + [e0], st.tmp + [e1])
        else
          var next := FirstState(st.overlaps + [e1], st.tmp);
          var r := FirstInner(es, i0, i1 + 1, next);
          assert r.overlaps[|st.overlaps|..] == [e1] + r.overlaps[|next.overlaps|..];
          r
      else FirstState(st.overlaps, st.tmp + [e1])
  }

  /** The outer loop of the first pass (lines 72-88), from `index0 = i0` on. */
  function FirstPass(es: seq<Entity>, i0: nat, st: FirstState): (r: FirstState)
    requires i0 <= |es|
    ensures Extends(es, st, r)
    decreases |es| - i0
  {
    if i0 == |es| then st
    else
      var mid := FirstInner(es, i0, 0, st);
      var r := FirstPass(es, i0 + 1, mid);
      assert r.overlaps[|st.overlaps|..] == mid.overlaps[|st.overlaps|..] + r.overlaps[|mid.overlaps|..];
      assert r.tmp[|st.tmp|..] == mid.tmp[|st.tmp|..] + r.tmp[|mid.tmp|..];
      r
  }

  /** The position of the first entry equal to `x`, which `list.remove`
      and `list.index` look for. */
  function FirstIndex(xs: seq<Entity>, x: Entity): (p: nat)
    requires x in xs
    ensures p < |xs| && xs[p] == x && x !in xs[..p]
  {
    if xs[0] == x then 0
    else
      var q := FirstIndex(xs[1..], x);
      assert xs[..q + 1] == [xs[0]] + xs[1..][..q];
      q + 1
  }

  /** `list.remove(x)`: cuts out the first entry equal to `x`, and the
      entries before and after it keep their order. */
  function RemoveFirst(xs: seq<Entity>, x: Entity): (r: seq<Entity>)
    requires x in xs
    ensures |r| == |xs| - 1
    ensures r == xs[..FirstIndex(xs, x)] + xs[FirstIndex(xs, x) + 1..]
    ensures multiset(r) == multiset(xs) - multiset{x}
  {
    MultisetCut(xs, FirstIndex(xs, x));
    if xs[0] == x then xs[1..]
    else
      ConsCut(xs, x);
      [xs[0]] + RemoveFirst(xs[1..], x)
  }

  /** Cutting out the first `x` of a list that starts with something else
      keeps that head and cuts out the first `x` of the tail. */
  lemma ConsCut(xs: seq<Entity>, x: Entity)
    requires x in xs && xs[0] != x
    ensures var p, q := FirstIndex(xs, x), FirstIndex(xs[1..], x);
            xs[..p] + xs[p + 1..] == [xs[0]] + (xs[1..][..q] + xs[1..][q + 1..])
  {
    var q := FirstIndex(xs[1..], x);
    assert xs[..q + 1] == [xs[0]] + xs[1..][..q];
    assert xs[q + 2..] == xs[1..][q + 1..];
  }

  /** Cutting out one entry takes one occurrence of it out of the multiset. */
  lemma MultisetCut(xs: seq<Entity>, p: nat)
    requires p < |xs|
    ensures multiset(xs[..p] + xs[p + 1..]) == multiset(xs) - multiset{xs[p]}
  {
    assert xs == xs[..p] + [xs[p]] + xs[p + 1..];
  }

  /** The inner loop of the second pass (lines 95-99) for `match0 = m0`, at
      index `j` of the list as it now stands.  A removal shortens the list
      under the running iterator, and a second removal of `m0` raises. */
  function SecondInner(m0: Entity, tmp: seq<Entity>, j: nat): (r: Outcome)
    ensures r.Returned? ==> |r.list| <= |tmp| && multiset(r.list) <= multiset(tmp)
    decreases |tmp| - j
  {
    if j >= |tmp| then Returned(tmp)
    else if SecondPassRemoves(m0, tmp[j]) then
      if m0 in tmp then SecondInner(m0, RemoveFirst(tmp, m0), j + 1)
      else ValueError
    else SecondInner(m0, tmp, j + 1)
  }

  /** The outer loop of the second pass (lines 94-99), at index `i` of the
      list as it now stands. */
  function SecondPass(tmp: seq<Entity>, i: nat): (r: Outcome)
    ensures r.Returned? ==> multiset(r.list) <= multiset(tmp)
    decreases |tmp| - i
  {
    if i >= |tmp| then Returned(tmp)
    else
      match SecondInner(tmp[i], tmp, 0)
      case ValueError => ValueError
      case Returned(t) => SecondPass(t, i + 1)
  }

  /** `remove_overlaps(entities)` as written (lines 68-101). */
  function RemoveOverlaps(es: seq<Entity>): (r: Outcome)
    ensures r.Returned? ==> forall x :: x in r.list ==> x in es
    ensures |es| <= 1 ==> r == Returned(es)
  {
    var st := FirstPass(es, 0, FirstState([], []));
    assert st.tmp == st.tmp[0..];
    if |es| == 1 then
      assert FirstInner(es, 0, 1, FirstState([], [])) == FirstState([], []);
      assert FirstInner(es, 0, 0, FirstState([], [])) == FirstState([], []);
      assert FirstPass(es, 1, FirstState([], [])) == FirstState([], []);
      assert st == FirstState([], []);
      assert st.tmp + [es[0]] == es;
      Returned(st.tmp + [es[0]])
    else
      var r := SecondPass(st.tmp, 0);
      assert r.Returned? ==> forall x :: x in r.list ==> x in multiset(st.tmp);
      r
  }

  // ---------------------------------------------------------------------
  // What the second pass leaves alone

  /** The inner loop removes nothing when no later entry displaces `m0`. */
  lemma {:induction false} InnerKeeps(m0: Entity, tmp: seq<Entity>, j: nat)
    requires forall k :: j <= k < |tmp| ==> !SecondPassRemoves(m0, tmp[k])
    ensures SecondInner(m0, tmp, j) == Returned(tmp)
    decreases |tmp| - j
  {
    if j < |tmp| {
      InnerKeeps(m0, tmp, j + 1);
    }
  }

  /** The second pass returns its list unchanged when no entry of it
      displaces another. */
  lemma {:induction false} PassKeeps(tmp: seq<Entity>, i: nat)
    requires forall p, q :: 0 <= p < |tmp| && 0 <= q < |tmp| ==> !SecondPassRemoves(tmp[p], tmp[q])
    ensures SecondPass(tmp, i) == Returned(tmp)
    decreases |tmp| - i
  {
    if i < |tmp| {
      InnerKeeps(tmp[i], tmp, 0);
      PassKeeps(tmp, i + 1);
    }
  }

  /** On two entities the code comes down to `RemoveOverlapsPairAsWritten`:
      the first pass copies both, and the second removes at most one. */
  lemma PairAsWritten(a: Entity, b: Entity)
    ensures RemoveOverlaps([a, b]) == Returned(RemoveOverlapsPairAsWritten(a, b))
  {
    PairFirstPass(a, b);
    if SecondPassRemoves(a, b) {
      PairSecondPassFirst(a, b);
    } else if SecondPassRemoves(b, a) {
      PairSecondPassSecond(a, b);
    } else {
      PassKeeps([a, b], 0);
    }
  }

  /** The first pass pairs the first entity with the second and copies both. */
  lemma PairFirstPass(a: Entity, b: Entity)
    ensures FirstPass([a, b], 0, FirstState([], [])) == FirstState([], [a, b])
  {
    var es, e, st := [a, b], FirstState([], []), FirstState([], [a, b]);
    assert FirstInner(es, 0, 0, e) == st by {
      assert FirstInner(es, 0, 1, e) == st;
    }
    assert FirstInner(es, 1, 0, st) == st by {
      assert FirstInner(es, 1, 1, st) == FirstInner(es, 1, 2, st);
    }
    assert FirstPass(es, 2, st) == st;
    assert FirstPass(es, 1, st) == st;
  }

  /** The second pass removes `a` when `b` displaces it. */
  lemma PairSecondPassFirst(a: Entity, b: Entity)
    requires SecondPassRemoves(a, b)
    ensures SecondPass([a, b], 0) == Returned([b])
  {
    var es := [a, b];
    RemoveOfPair(a, b);
    assert SecondInner(a, [b], 2) == Returned([b]);
    assert SecondInner(a, es, 0) == Returned([b]) by {
      assert SecondInner(a, es, 0) == SecondInner(a, es, 1);
    }
    assert SecondPass([b], 1) == Returned([b]);
  }

  /** Otherwise it removes `b` when `a` displaces it. */
  lemma PairSecondPassSecond(a: Entity, b: Entity)
    requires !SecondPassRemoves(a, b) && SecondPassRemoves(b, a)
    ensures SecondPass([a, b], 0) == Returned([a])
  {
    PairInnerFirstKeeps(a, b);
    PairInnerSecond(a, b);
    assert SecondPass([a], 2) == Returned([a]);
  }

  /** The inner loop for `a` removes nothing when `b` does not displace it. */
  lemma PairInnerFirstKeeps(a: Entity, b: Entity)
    requires !SecondPassRemoves(a, b)
    ensures SecondInner(a, [a, b], 0) == Returned([a, b])
  {
    InnerKeeps(a, [a, b], 0);
  }

  /** The inner loop for `b` removes it in favour of `a`, at index 0. */
  lemma PairInnerSecond(a: Entity, b: Entity)
    requires SecondPassRemoves(b, a)
    ensures SecondInner(b, [a, b], 0) == Returned([a])
  {
    RemoveOfPair(a, b);
    assert SecondInner(b, [a], 1) == Returned([a]);
  }

  /** `list.remove` on a two-entry list: removing the first entry leaves
      the second, and removing a different second entry leaves the first. */
  lemma RemoveOfPair(a: Entity, b: Entity)
    ensures RemoveFirst([a, b], a) == [b]
    ensures a != b ==> RemoveFirst([a, b], b) == [a]
  {
    var es := [a, b];
    if a != b {
      assert FirstIndex(es, b) == 1 by {
        assert es[1..] == [b];
      }
      assert es[..1] + es[2..] == [a];
    }
  }

  /** Four words joined by single spaces split back into the four words. */
  lemma SplitFour(a: string, b: string, c: string, d: string)
    requires IsWord(a) && IsWord(b) && IsWord(c) && IsWord(d)
    ensures Split(a + " " + b + " " + c + " " + d) == [a, b, c, d]
  {
    var ws := [a, b, c, d];
    JoinFour(a, b, c, d);
    assert forall k :: 0 <= k < |ws| ==> IsWord(ws[k]) by {
      assert ws[0] == a && ws[1] == b && ws[2] == c && ws[3] == d;
    }
    SplitJoin(ws);
  }

  lemma JoinFour(a: string, b: string, c: string, d: string)
    ensures Join([a, b, c, d]) == a + " " + b + " " + c + " " + d
  {
    var cd := c + " " + d;
    var bcd := b + " " + cd;
    assert Join([c, d]) == cd by {
      assert [c, d][1..] == [d];
    }
    assert Join([b, c, d]) == bcd by {
      assert [b, c, d][1..] == [c, d];
    }
    assert Join([a, b, c, d]) == a + " " + bcd by {
      assert [a, b, c, d][1..] == [b, c, d];
    }
  }

  /** The policy on three entities whose middle one loses to the last on
      word count, while the first does not overlap the last: the middle one
      is dropped, and once it is dropped the first no longer has a rival. */
  lemma MiddleLoses(u: Entity, v: Entity, w: Entity)
    requires !Overlap(u, w) && Overlap(v, w) && |Words(v)| < |Words(w)|
    ensures Resolve([u, v, w]) == [u, w]
  {
    var xs := [u, v, w];
    Unbeaten(xs, 2);
    Eliminated(xs, 1, 2);
    SurvivesPast(xs, 0, 1);
    KeepFromStep(xs, 2);
    KeepFromSkip(xs, 1);
    KeepFromStep(xs, 0);
    assert KeepFrom(xs, 3) == [];
  }

  // ---------------------------------------------------------------------
  // A loser that stays: line 82 puts `e0` on `overlaps` but not off `tmp`

  /** Three entities `x`, `y`, `w`, where `w` starts inside `y` and has
      more words.  The first pass copies `x` and `y` while pairing them, then
      lets `w` beat `y` and lists `y` under `overlaps`, but `y` stays in
      `tmp`. */
  lemma LoserStays(x: Entity, y: Entity, w: Entity)
    requires y != x && y.start < w.start < y.end && |Words(y)| < |Words(w)|
    ensures FirstPass([x, y, w], 0, FirstState([], [])) == FirstState([y], [x, y, w])
  {
    var xs, e := [x, y, w], FirstState([], []);
    var s1, s2 := FirstState([], [x, y]), FirstState([y], [x, y, w]);
    assert FirstInner(xs, 0, 0, e) == s1 by {
      assert FirstInner(xs, 0, 1, e) == s1;
    }
    assert FirstInner(xs, 1, 0, s1) == s2 by {
      assert FirstInner(xs, 1, 2, s1) == s2;
      assert FirstInner(xs, 1, 1, s1) == s2;
    }
    assert FirstInner(xs, 2, 0, s2) == s2 by {
      assert FirstInner(xs, 2, 2, s2) == s2;
      assert FirstInner(xs, 2, 1, s2) == s2;
    }
    assert FirstPass(xs, 2, s2) == s2;
    assert FirstPass(xs, 1, s1) == s2;
  }

  /** Three entities: the one-word `p` on token 0, the two-word `z a` on
      tokens 2-3 and the three-word `a b c` on tokens 3-5.  The first pass
      copies `z a` while pairing it with `p`, then lets `a b c` beat it and
      lists it under `overlaps`, but leaves it in `tmp`; the second pass
      removes an entity only in favour of a greater word list, and `[z, a]`
      is the greater one.  Two overlapping entities come back. */
  lemma LoserStaysAsWritten(p: string, z: string, a: string, b: string, c: string, labels: set<string>)
    requires IsWord(p) && IsWord(z) && IsWord(a) && IsWord(b) && IsWord(c) && StrLess(a, z)
    ensures var ep, er, es := Entity(p, 0, 1, labels), Entity(z + " " + a, 2, 4, labels),
                              Entity(a + " " + b + " " + c, 3, 6, labels);
            && Overlap(er, es) && Beats(es, er)
            && RemoveOverlaps([ep, er, es]) == Returned([ep, er, es])
  {
    SplitWord(p);
    SplitPair(z, a);
    SplitTriple(a, b, c);
    StrLessOrder();
    var ep, er, es := Entity(p, 0, 1, labels), Entity(z + " " + a, 2, 4, labels),
                      Entity(a + " " + b + " " + c, 3, 6, labels);
    LoserStays(ep, er, es);
    assert !WordsLess([z, a], [a, b, c]);
    PassKeeps([ep, er, es], 0);
  }

  /** The policy drops `z a`, which the longer `a b c` beats. */
  lemma LoserStaysResolved(p: string, z: string, a: string, b: string, c: string, labels: set<string>)
    requires IsWord(p) && IsWord(z) && IsWord(a) && IsWord(b) && IsWord(c)
    ensures var ep, er, es := Entity(p, 0, 1, labels), Entity(z + " " + a, 2, 4, labels),
                              Entity(a + " " + b + " " + c, 3, 6, labels);
            Resolve([ep, er, es]) == [ep, es]
  {
    SplitPair(z, a);
    SplitTriple(a, b, c);
    MiddleLoses(Entity(p, 0, 1, labels), Entity(z + " " + a, 2, 4, labels),
                Entity(a + " " + b + " " + c, 3, 6, labels));
  }

  // ---------------------------------------------------------------------
  // Removed twice: line 99 removes `match0` once for every rival

  /** The second pass on `[y, x, z]` when nothing displaces `y` and both
      `y` and `z` displace `x`: `x` is removed in favour of `y`, and the
      removal in favour of `z` raises. */
  lemma RemovedTwice(y: Entity, x: Entity, z: Entity)
    requires !SecondPassRemoves(y, x) && !SecondPassRemoves(y, z)
    requires SecondPassRemoves(x, y) && SecondPassRemoves(x, z)
    ensures SecondPass([y, x, z], 0) == ValueError
  {
    var xs := [y, x, z];
    InnerKeeps(y, xs, 0);
    RemovedTwiceInner(y, x, z);
    assert SecondPass(xs, 0) == SecondPass(xs, 1);
  }

  lemma RemovedTwiceInner(y: Entity, x: Entity, z: Entity)
    requires SecondPassRemoves(x, y) && SecondPassRemoves(x, z)
    ensures SecondInner(x, [y, x, z], 0) == ValueError
  {
    RemovedOnce(y, x, z);
    RemovedAgain(y, x, z);
  }

  /** `y` displaces `x`: `x` comes off the list, and the loop moves on to
      what is now index 1. */
  lemma RemovedOnce(y: Entity, x: Entity, z: Entity)
    requires SecondPassRemoves(x, y)
    ensures SecondInner(x, [y, x, z], 0) == SecondInner(x, [y, z], 1)
  {
    RemoveSecond(y, x, z);
  }

  /** `list.remove` of the entry at index 1, when index 0 differs from it. */
  lemma RemoveSecond(y: Entity, x: Entity, z: Entity)
    requires x != y
    ensures RemoveFirst([y, x, z], x) == [y, z]
  {
    var xs := [y, x, z];
    assert FirstIndex(xs, x) == 1 by {
      assert xs[1..] == [x, z];
    }
    assert xs[..1] + xs[2..] == [y, z];
  }

  /** `z` displaces `x`, which is no longer there to remove. */
  lemma RemovedAgain(y: Entity, x: Entity, z: Entity)
    requires x != y && SecondPassRemoves(x, z)
    ensures SecondInner(x, [y, z], 1) == ValueError
  {
    assert x !in [y, z];
  }

  /** Three entities over `a c b e f g`: the one-word `c` on token 1, the
      three-word `a c b` on tokens 0-2 and the four-word `b e f g` on tokens
      2-5, with `a < b < c`.  Both `c` and `b e f g` start within `a c b`
      and have greater word lists, so the second pass removes `a c b` for
      the first and calls `tmp.remove` again for the second, when it is no
      longer there: the call raises `ValueError`. */
  lemma RemovedTwiceAsWritten(a: string, b: string, c: string, e: string, f: string, g: string, labels: set<string>)
    requires IsWord(a) && IsWord(b) && IsWord(c) && IsWord(e) && IsWord(f) && IsWord(g)
    requires StrLess(a, b) && StrLess(b, c)
    ensures var ey, ex, ez := Entity(c, 1, 2, labels), Entity(a + " " + c + " " + b, 0, 3, labels),
                              Entity(b + " " + e + " " + f + " " + g, 2, 6, labels);
            RemoveOverlaps([ey, ex, ez]) == ValueError
  {
    SplitWord(c);
    SplitTriple(a, c, b);
    SplitFour(b, e, f, g);
    StrLessOrder();
    var ey, ex, ez := Entity(c, 1, 2, labels), Entity(a + " " + c + " " + b, 0, 3, labels),
                      Entity(b + " " + e + " " + f + " " + g, 2, 6, labels);
    var xs := [ey, ex, ez];
    LoserStays(ey, ex, ez);
    assert !WordsLess([c], [b, e, f, g]);
    assert WordsLess([a, c, b], [c]) && WordsLess([a, c, b], [b, e, f, g]);
    RemovedTwice(ey, ex, ez);
  }

  /** The policy keeps `c` and `b e f g`: `b e f g` beats `a c b`, and once
      `a c b` is dropped nothing overlapping `c` takes precedence over it. */
  lemma RemovedTwiceResolved(a: string, b: string, c: string, e: string, f: string, g: string, labels: set<string>)
    requires IsWord(a) && IsWord(b) && IsWord(c) && IsWord(e) && IsWord(f) && IsWord(g)
    ensures var ey, ex, ez := Entity(c, 1, 2, labels), Entity(a + " " + c + " " + b, 0, 3, labels),
                              Entity(b + " " + e + " " + f + " " + g, 2, 6, labels);
            Resolve([ey, ex, ez]) == [ey, ez]
  {
    SplitWord(c);
    SplitTriple(a, c, b);
    SplitFour(b, e, f, g);
    MiddleLoses(Entity(c, 1, 2, labels), Entity(a + " " + c + " " + b, 0, 3, labels),
                Entity(b + " " + e + " " + f + " " + g, 2, 6, labels));
  }
}

=== FILE: overlap_resolver.dfy ===
/** `remove_overlaps`: reduces the candidate entities of one sentence to a
    set whose token ranges do not intersect.  A longer entity (by word count)
    beats a shorter one; between entities of equal length the one whose word
    list is lexicographically greater wins, and between identical word lists
    the earlier one.  Only a kept entity eliminates others: a discarded entity
    no longer competes, so an entity it would have beaten can still be kept. */
module OverlapResolver {
  import opened Text
  import opened SpanMatcher

  /** Two entities share at least one token. */
  predicate Overlap(a: Entity, b: Entity) {
    a.start < b.end && b.start < a.end
  }

  /** No two entries at different positions of `es` share a token. */
  predicate Disjoint(es: seq<Entity>) {
    forall i, j :: 0 <= i < |es| && 0 <= j < |es| && i != j ==> !Overlap(es[i], es[j])
  }

  /** The words of an entity's phrase, `span.split()`. */
  function Words(m: Entity): seq<string> {
    Split(m.span)
  }

  /** `a` takes precedence over `b`: it has more words, or as many words and
      a lexicographically greater word list. */
  predicate Beats(a: Entity, b: Entity) {
    || |Words(a)| > |Words(b)|
    || (|Words(a)| == |Words(b)| && WordsLess(Words(b), Words(a)))
  }

  /** Entry `j` takes precedence over entry `i`: it beats it, or it has the
      same words and comes first. */
  predicate Outranks(es: seq<Entity>, j: nat, i: nat)
    requires j < |es| && i < |es|
  {
    Beats(es[j], es[i]) || (Words(es[j]) == Words(es[i]) && j < i)
  }

  /** No entry takes precedence over itself. */
  lemma OutranksIrreflexive(es: seq<Entity>, i: nat)
    requires i < |es|
    ensures !Outranks(es, i, i)
  {
    WordsLessOrder();
  }

  /** Precedence is transitive. */
  lemma OutranksTransitive(es: seq<Entity>, i: nat, j: nat, k: nat)
    requires i < |es| && j < |es| && k < |es|
    requires Outranks(es, i, j) && Outranks(es, j, k)
    ensures Outranks(es, i, k)
  {
    WordsLessOrder();
  }

  /** The positions whose entries take precedence over entry `i`. */
  function Above(es: seq<Entity>, i: nat): set<nat>
    requires i < |es|
  {
    set j: nat | j < |es| && Outranks(es, j, i)
  }

  /** An entry that takes precedence over entry `i` has fewer entries above
      it than `i` has. */
  lemma AboveShrinks(es: seq<Entity>, j: nat, i: nat)
    requires j < |es| && i < |es| && Outranks(es, j, i)
    ensures |Above(es, j)| < |Above(es, i)|
  {
    var upper, lower := Above(es, i), Above(es, j);
    forall x | x in lower ensures x in upper {
      OutranksTransitive(es, x, j, i);
    }
    OutranksIrreflexive(es, j);
    assert j in upper - lower;
    assert upper == lower + (upper - lower);
  }

  /** Entry `i` is kept: every overlapping entry that takes precedence over
      it is itself discarded. */
  predicate Survives(es: seq<Entity>, i: nat)
    requires i < |es|
    decreases |Above(es, i)|
  {
    forall j :: 0 <= j < |es| && Overlap(es[j], es[i]) && Outranks(es, j, i) ==>
      (AboveShrinks(es, j, i); !Survives(es, j))
  }

  /** Precedence between entities is asymmetric, and an entity only ever
      beats one with a different word list. */
  lemma BeatsAsymmetric(a: Entity, b: Entity)
    requires Beats(a, b)
    ensures !Beats(b, a) && Words(a) != Words(b)
  {
    WordsLessOrder();
  }

  /** Of two different entries, one takes precedence over the other. */
  lemma OutranksTotal(es: seq<Entity>, i: nat, j: nat)
    requires i < |es| && j < |es| && i != j
    ensures Outranks(es, i, j) || Outranks(es, j, i)
  {
    WordsLessOrder();
  }

  /** Two surviving entries never share a token. */
  lemma SurvivorsDisjoint(es: seq<Entity>, i: nat, j: nat)
    requires i < |es| && j < |es| && i != j
    requires Survives(es, i) && Survives(es, j)
    ensures !Overlap(es[i], es[j])
  {
    OutranksTotal(es, i, j);
  }

  /** The surviving entries from position `k` on, in input order. */
  function KeepFrom(es: seq<Entity>, k: nat): (r: seq<Entity>)
    requires k <= |es|
    ensures forall x :: x in r ==> exists i :: k <= i < |es| && es[i] == x && Survives(es, i)
    ensures forall i :: k <= i < |es| && Survives(es, i) ==> es[i] in r
    ensures forall p, q :: 0 <= p < q < |r| ==> !Overlap(r[p], r[q])
    decreases |es| - k
  {
    if k == |es| then []
    else
      var rest := KeepFrom(es, k + 1);
      if Survives(es, k) then
        assert forall q :: 0 <= q < |rest| ==> !Overlap(es[k], rest[q]) by {
          forall q | 0 <= q < |rest| ensures !Overlap(es[k], rest[q]) {
            assert rest[q] in rest;
            var i :| k + 1 <= i < |es| && es[i] == rest[q] && Survives(es, i);
            SurvivorsDisjoint(es, k, i);
          }
        }
        [es[k]] + rest
      else
        rest
  }

  /** What the surviving entries, taken from the start, amount to. */
  lemma KeepFromStart(es: seq<Entity>)
    ensures Disjoint(KeepFrom(es, 0))
    ensures forall i :: 0 <= i < |es| && es[i] !in KeepFrom(es, 0) ==>
              exists j :: 0 <= j < |es| && es[j] in KeepFrom(es, 0) && Overlap(es[j], es[i]) && Outranks(es, j, i)
    ensures |es| <= 1 ==> KeepFrom(es, 0) == es
  {
    var r := KeepFrom(es, 0);
    forall p, q | 0 <= p < |r| && 0 <= q < |r| && p != q ensures !Overlap(r[p], r[q]) {
      if q < p {
        assert !Overlap(r[q], r[p]);
      }
    }
    forall i | 0 <= i < |es| && es[i] !in r
      ensures exists j :: 0 <= j < |es| && es[j] in r && Overlap(es[j], es[i]) && Outranks(es, j, i)
    {
      assert !Survives(es, i);
      var j :| 0 <= j < |es| && Overlap(es[j], es[i]) && Outranks(es, j, i) && Survives(es, j);
      assert es[j] in r;
    }
    if |es| == 1 {
      assert Survives(es, 0) by {
        OutranksIrreflexive(es, 0);
      }
      assert es[0] in r;
    }
  }

  /** `remove_overlaps`, as the policy it implements: the result holds
      exactly the surviving entries and no two of them share a token.  An
      entry that no overlapping entry takes precedence over is kept, and a
      dropped entry overlaps a kept one that takes precedence over it, so
      nothing more could be added without an overlap. */
  function Resolve(es: seq<Entity>): (r: seq<Entity>)
    ensures forall x :: x in r ==> exists i :: 0 <= i < |es| && es[i] == x && Survives(es, i)
    ensures forall i :: 0 <= i < |es| && Survives(es, i) ==> es[i] in r
    ensures Disjoint(r)
    ensures forall i :: 0 <= i < |es| && (forall j :: 0 <= j < |es| && Overlap(es[j], es[i]) ==> !Outranks(es, j, i)) ==>
              es[i] in r
    ensures forall i :: 0 <= i < |es| && es[i] !in r ==>
              exists j :: 0 <= j < |es| && es[j] in r && Overlap(es[j], es[i]) && Outranks(es, j, i)
    ensures |es| <= 1 ==> r == es
  {
    KeepFromStart(es);
    KeepFrom(es, 0)
  }

  /** One step of `KeepFrom`: a surviving entry is kept in front of the rest. */
  lemma KeepFromStep(es: seq<Entity>, k: nat)
    requires k < |es| && Survives(es, k)
    ensures KeepFrom(es, k) == [es[k]] + KeepFrom(es, k + 1)
  {
  }

  /** One step of `KeepFrom`: a discarded entry is left out. */
  lemma KeepFromSkip(es: seq<Entity>, k: nat)
    requires k < |es| && !Survives(es, k)
    ensures KeepFrom(es, k) == KeepFrom(es, k + 1)
  {
  }

  /** The surviving entries from position `k` on, when every entry survives. */
  lemma {:induction false} KeepFromAll(es: seq<Entity>, k: nat)
    requires k <= |es|
    requires forall i :: 0 <= i < |es| ==> Survives(es, i)
    ensures KeepFrom(es, k) == es[k..]
    decreases |es| - k
  {
    if k < |es| {
      KeepFromStep(es, k);
      KeepFromAll(es, k + 1);
      SuffixCons(es, k);
    }
  }

  lemma SuffixCons(es: seq<Entity>, k: nat)
    requires k < |es|
    ensures es[k..] == [es[k]] + es[k + 1..]
  {
  }

  /** Input that is already free of overlaps comes back unchanged. */
  lemma ResolveKeepsDisjoint(es: seq<Entity>)
    requires Disjoint(es)
    ensures Resolve(es) == es
  {
    KeepFromAll(es, 0);
  }

  /** Resolving twice is resolving once. */
  lemma ResolveIdempotent(es: seq<Entity>)
    ensures Resolve(Resolve(es)) == Resolve(es)
  {
    ResolveKeepsDisjoint(Resolve(es));
  }

  /** Four entities over tokens 0-4, in this order: `ex` on token 0, the
      three-word `ea` on tokens 1-3, the two-word `eb` on tokens 3-4 and the
      one-word `ec` on token 4.  `eb` beats `ec`, but it loses to the longer
      `ea`; once discarded it no longer competes, so `ec` is kept. */
  lemma ChainResolve(ex: Entity, ea: Entity, eb: Entity, ec: Entity)
    requires ex.start == 0 && ex.end == 1 && ea.start == 1 && ea.end == 4
    requires eb.start == 3 && eb.end == 5 && ec.start == 4 && ec.end == 5
    requires |Words(ex)| == 1 && |Words(ea)| == 3 && |Words(eb)| == 2 && |Words(ec)| == 1
    ensures Overlap(eb, ec) && Beats(eb, ec)
    ensures Resolve([ex, ea, eb, ec]) == [ex, ea, ec]
  {
    var es := [ex, ea, eb, ec];
    ChainSurvivors(es);
    KeepFromChain(es);
  }

  /** With entries 0, 1 and 3 surviving and entry 2 discarded, the kept
      entries are 0, 1 and 3. */
  lemma KeepFromChain(es: seq<Entity>)
    requires |es| == 4
    requires Survives(es, 0) && Survives(es, 1) && !Survives(es, 2) && Survives(es, 3)
    ensures KeepFrom(es, 0) == [es[0], es[1], es[3]]
  {
    KeepFromStep(es, 3);
    KeepFromSkip(es, 2);
    KeepFromStep(es, 1);
    KeepFromStep(es, 0);
    ConsThree(KeepFrom(es, 0), KeepFrom(es, 1), KeepFrom(es, 3), KeepFrom(es, 4), es[0], es[1], es[3]);
  }

  lemma ConsThree(r0: seq<Entity>, r1: seq<Entity>, r3: seq<Entity>, r4: seq<Entity>, a: Entity, b: Entity, c: Entity)
    requires r0 == [a] + r1 && r1 == [b] + r3 && r3 == [c] + r4 && r4 == []
    ensures r0 == [a, b, c]
  {
  }

  /** Which of the four entities of `ChainResolve` survive. */
  lemma ChainSurvivors(es: seq<Entity>)
    requires |es| == 4
    requires es[0].start == 0 && es[0].end == 1 && es[1].start == 1 && es[1].end == 4
    requires es[2].start == 3 && es[2].end == 5 && es[3].start == 4 && es[3].end == 5
    requires |Words(es[0])| == 1 && |Words(es[1])| == 3 && |Words(es[2])| == 2 && |Words(es[3])| == 1
    ensures Survives(es, 0) && Survives(es, 1) && !Survives(es, 2) && Survives(es, 3)
  {
    forall j | 0 <= j < |es|
      ensures !Overlap(es[j], es[0]) || j == 0
      ensures !Overlap(es[j], es[1]) || j == 1 || |Words(es[j])| < 3
      ensures !Overlap(es[j], es[3]) || j == 3 || j == 2
    {
      if j == 0 {
      } else if j == 1 {
      } else if j == 2 {
      } else {
        assert j == 3;
      }
    }
    Unbeaten(es, 0);
    Unbeaten(es, 1);
    Eliminated(es, 2, 1);
    SurvivesPast(es, 3, 2);
  }

  /** An entry survives when no other entry overlapping it takes
      precedence over it. */
  lemma Unrivalled(es: seq<Entity>, i: nat)
    requires i < |es|
    requires forall j :: 0 <= j < |es| && j != i && Overlap(es[j], es[i]) ==> !Outranks(es, j, i)
    ensures Survives(es, i)
  {
    OutranksIrreflexive(es, i);
  }

  /** An entry survives when every other entry overlapping it has fewer
      words. */
  lemma Unbeaten(es: seq<Entity>, i: nat)
    requires i < |es|
    requires forall j :: 0 <= j < |es| && j != i && Overlap(es[j], es[i]) ==> |Words(es[j])| < |Words(es[i])|
    ensures Survives(es, i)
  {
    Unrivalled(es, i);
  }

  /** An entry survives when the one discarded entry `k` is the only other
      overlapping entry that does not have fewer words. */
  lemma SurvivesPast(es: seq<Entity>, i: nat, k: nat)
    requires i < |es| && k < |es| && !Survives(es, k)
    requires forall j :: 0 <= j < |es| && j != i && j != k && Overlap(es[j], es[i]) ==> |Words(es[j])| < |Words(es[i])|
    ensures Survives(es, i)
  {
    OutranksIrreflexive(es, i);
  }

  /** An entry overlapping a surviving entry that takes precedence over it
      is discarded. */
  lemma Eliminated(es: seq<Entity>, i: nat, j: nat)
    requires i < |es| && j < |es|
    requires Survives(es, j) && Overlap(es[j], es[i]) && Outranks(es, j, i)
    ensures !Survives(es, i)
  {
  }

  /** Of two overlapping entities, only the one that takes precedence is
      kept. */
  lemma ResolvePair(a: Entity, b: Entity)
    requires Overlap(a, b)
    ensures Outranks([a, b], 0, 1) ==> Resolve([a, b]) == [a]
    ensures Outranks([a, b], 1, 0) ==> Resolve([a, b]) == [b]
  {
    var es := [a, b];
    OutranksTotal(es, 0, 1);
    if Outranks(es, 0, 1) {
      if Outranks(es, 1, 0) {
        OutranksTransitive(es, 0, 1, 0);
        OutranksIrreflexive(es, 0);
      }
      Unrivalled(es, 0);
      Eliminated(es, 1, 0);
      KeepFromSkip(es, 1);
      KeepFromStep(es, 0);
      assert KeepFrom(es, 2) == [];
    } else {
      Unrivalled(es, 1);
      Eliminated(es, 0, 1);
      KeepFromStep(es, 1);
      KeepFromSkip(es, 0);
      assert KeepFrom(es, 2) == [];
    }
  }

  /** The same over the words `x b1 b2 b3 a4`: `x`, `b1 b2 b3`, `b3 a4` and
      `a4` resolve to `x`, `b1 b2 b3` and `a4`. */
  lemma DiscardedDoesNotBlock(x: string, b1: string, b2: string, b3: string, a4: string, labels: set<string>)
    requires IsWord(x) && IsWord(b1) && IsWord(b2) && IsWord(b3) && IsWord(a4)
    ensures var ex, ea := Entity(x, 0, 1, labels), Entity(b1 + " " + b2 + " " + b3, 1, 4, labels);
            var eb, ec := Entity(b3 + " " + a4, 3, 5, labels), Entity(a4, 4, 5, labels);
            && Overlap(eb, ec) && Beats(eb, ec)
            && Resolve([ex, ea, eb, ec]) == [ex, ea, ec]
  {
    SplitWord(x);
    SplitTriple(b1, b2, b3);
    SplitPair(b3, a4);
    SplitWord(a4);
    ChainResolve(Entity(x, 0, 1, labels), Entity(b1 + " " + b2 + " " + b3, 1, 4, labels),
                 Entity(b3 + " " + a4, 3, 5, labels), Entity(a4, 4, 5, labels));
  }

  // ---------------------------------------------------------------------
  // The source as written, on two entities

  /** The removal test of the second pass as written: `match0` is removed
      when it differs from `match1`, `match1` starts anywhere from the start
      of `match0` up to and including its exclusive end, and `match1`'s word
      list is lexicographically greater. */
  predicate SecondPassRemoves(match0: Entity, match1: Entity) {
    && match0 != match1
    && match0.start <= match1.start <= match0.end
    && WordsLess(Words(match0), Words(match1))
  }

  /** `remove_overlaps` as written, applied to the two-entity list `[a, b]`.
      The first pass takes its `e0 == entities[0]` branch at once and copies
      both entities; the second pass then removes `a` if `b` displaces it,
      and otherwise removes `b` if `a` displaces it. */
  function RemoveOverlapsPairAsWritten(a: Entity, b: Entity): (r: seq<Entity>)
    ensures 1 <= |r| <= 2
    ensures forall x :: x in r ==> x == a || x == b
    ensures |r| == 2 <==> !SecondPassRemoves(a, b) && !SecondPassRemoves(b, a)
  {
    if SecondPassRemoves(a, b) then [b]
    else if SecondPassRemoves(b, a) then [a]
    else [a, b]
  }

  /** Two words joined by one space split back into the two words. */
  lemma SplitPair(a: string, b: string)
    requires IsWord(a) && IsWord(b)
    ensures Split(a + " " + b) == [a, b]
  {
    SplitJoin([a, b]);
    assert [a, b][1..] == [b];
  }

  /** Three words joined by single spaces split back into the three words. */
  lemma SplitTriple(a: string, b: string, c: string)
    requires IsWord(a) && IsWord(b) && IsWord(c)
    ensures Split(a + " " + b + " " + c) == [a, b, c]
  {
    assert Join([a, b, c]) == a + " " + b + " " + c by {
      assert [a, b, c][1..] == [b, c];
      assert [b, c][1..] == [c];
      assert Join([b, c]) == b + " " + c;
    }
    SplitJoin([a, b, c]);
  }

  /** Two adjacent one-word entities, word `a` on token 0 and word `b` on
      token 1, share no token.  When `b` compares greater, the second pass as
      written still removes `a`: it counts a span that starts at the other's
      exclusive end as overlapping. */
  lemma AdjacentSpansAsWritten(a: string, b: string, labels: set<string>)
    requires IsWord(a) && IsWord(b) && StrLess(a, b)
    ensures var ea, eb := Entity(a, 0, 1, labels), Entity(b, 1, 2, labels);
            && !Overlap(ea, eb)
            && RemoveOverlapsPairAsWritten(ea, eb) == [eb]
  {
    SplitWord(a);
    SplitWord(b);
  }

  /** The policy keeps both adjacent entities. */
  lemma AdjacentSpansResolved(a: string, b: string, labels: set<string>)
    ensures var ea, eb := Entity(a, 0, 1, labels), Entity(b, 1, 2, labels);
            Resolve([ea, eb]) == [ea, eb]
  {
    ResolveKeepsDisjoint([Entity(a, 0, 1, labels), Entity(b, 1, 2, labels)]);
  }

  /** Over three tokens `a b c`, the two-word entities `a b` (tokens 0-1) and
      `b c` (tokens 1-2) share token 1.  When `b c` compares smaller, both
      survive as written: the first pass copies the first two entities
      without a test, and the second pass removes an entity only in favour
      of a later-starting one with a greater word list. */
  lemma CrossingSpansAsWritten(a: string, b: string, c: string, labels: set<string>)
    requires IsWord(a) && IsWord(b) && IsWord(c) && WordsLess([b, c], [a, b])
    ensures var ab, bc := Entity(a + " " + b, 0, 2, labels), Entity(b + " " + c, 1, 3, labels);
            && Overlap(ab, bc)
            && RemoveOverlapsPairAsWritten(ab, bc) == [ab, bc]
  {
    SplitPair(a, b);
    SplitPair(b, c);
    WordsLessOrder();
  }

  /** The policy keeps only `a b`, whose word list compares greater. */
  lemma CrossingSpansResolved(a: string, b: string, c: string, labels: set<string>)
    requires IsWord(a) && IsWord(b) && IsWord(c) && WordsLess([b, c], [a, b])
    ensures var ab, bc := Entity(a + " " + b, 0, 2, labels), Entity(b + " " + c, 1, 3, labels);
            Resolve([ab, bc]) == [ab]
  {
    SplitPair(a, b);
    SplitPair(b, c);
    var ab, bc := Entity(a + " " + b, 0, 2, labels), Entity(b + " " + c, 1, 3, labels);
    assert Outranks([ab, bc], 0, 1);
    ResolvePair(ab, bc);
  }

  /** "Georgia" and "Korea" on adjacent tokens: as written "Georgia" is
      removed; the policy keeps both. */
  lemma GeorgiaKorea()
    ensures var g, k := Entity("Georgia", 0, 1, {"LOC"}), Entity("Korea", 1, 2, {"LOC"});
            && !Overlap(g, k)
            && RemoveOverlapsPairAsWritten(g, k) == [k]
            && Resolve([g, k]) == [g, k]
  {
    assert IsWord("Georgia") && IsWord("Korea");
    assert StrLess("Georgia", "Korea");
    AdjacentSpansAsWritten("Georgia", "Korea", {"LOC"});
    AdjacentSpansResolved("Georgia", "Korea", {"LOC"});
  }

  /** "South Korea" and "Korea Town" over "South Korea Town": as written both
      are kept; the policy keeps "South Korea" only. */
  lemma SouthKoreaTown()
    ensures var sk, kt := Entity("South Korea", 0, 2, {"LOC"}), Entity("Korea Town", 1, 3, {"LOC"});
            && Overlap(sk, kt)
            && RemoveOverlapsPairAsWritten(sk, kt) == [sk, kt]
            && Resolve([sk, kt]) == [sk]
  {
    assert IsWord("South") && IsWord("Korea") && IsWord("Town");
    assert "South Korea" == "South" + " " + "Korea" && "Korea Town" == "Korea" + " " + "Town";
    assert StrLess("Korea", "South");
    assert WordsLess(["Korea", "Town"], ["South", "Korea"]);
    CrossingSpansAsWritten("South", "Korea", "Town", {"LOC"});
    CrossingSpansResolved("South", "Korea", "Town", {"LOC"});
  }

  /** Over three tokens `a b c`, the one-word entity `b` (token 1) lies
      inside the three-word entity `a b c`.  When `b` compares greater than
      `a`, the second pass as written removes the longer entity: it compares
      whole word lists, so `[b]` is greater than `[a, b, c]` whatever the
      lengths. */
  lemma ShorterInsideAsWritten(a: string, b: string, c: string, labels: set<string>)
    requires IsWord(a) && IsWord(b) && IsWord(c) && StrLess(a, b)
    ensures var inner, outer := Entity(b, 1, 2, labels), Entity(a + " " + b + " " + c, 0, 3, labels);
            && Overlap(inner, outer)
            && RemoveOverlapsPairAsWritten(inner, outer) == [inner]
  {
    SplitWord(b);
    SplitTriple(a, b, c);
  }

  /** The policy keeps the longer entity only. */
  lemma ShorterInsideResolved(a: string, b: string, c: string, labels: set<string>)
    requires IsWord(a) && IsWord(b) && IsWord(c)
    ensures var inner, outer := Entity(b, 1, 2, labels), Entity(a + " " + b + " " + c, 0, 3, labels);
            Resolve([inner, outer]) == [outer]
  {
    SplitWord(b);
    SplitTriple(a, b, c);
    var inner, outer := Entity(b, 1, 2, labels), Entity(a + " " + b + " " + c, 0, 3, labels);
    assert Outranks([inner, outer], 1, 0);
    ResolvePair(inner, outer);
  }

  /** "York" inside "New York City": as written only "York" is kept; the
      policy keeps "New York City". */
  lemma NewYorkCityInner()
    ensures var inner, outer := Entity("York", 1, 2, {"LOC"}), Entity("New York City", 0, 3, {"LOC"});
            && RemoveOverlapsPairAsWritten(inner, outer) == [inner]
            && Resolve([inner, outer]) == [outer]
  {
    assert IsWord("New") && IsWord("York") && IsWord("City");
    assert "New York City" == "New" + " " + "York" + " " + "City";
    assert StrLess("New", "York");
    ShorterInsideAsWritten("New", "York", "City", {"LOC"});
    ShorterInsideResolved("New", "York", "City", {"LOC"});
  }
}

=== FILE: pattern_index.dfy ===
/** The phrase index `create_ac` builds: every gazetteer phrase mapped to the
    set of labels registered for it.  The automaton that carries this map in
    the original program only adds a way to search for the phrases; the
    search is specified separately, in `SpanMatcher`. */
module PatternIndex {

  type Index = map<string, set<string>>

  /** One `(span, label)` pair from a gazetteer, as `read_gazetteers` yields it. */
  type Entry = (string, string)

  /** One registration: the phrase's entry is created with an empty label set
      when it is missing, and the label `value` is added to it. */
  function Register(index: Index, span: string, value: string): (r: Index)
    ensures r.Keys == index.Keys + {span}
    ensures forall l :: l in r[span] <==> l == value || (span in index && l in index[span])
    ensures forall s :: s in index && s != span ==> r[s] == index[s]
  {
    var labels := if span in index then index[span] else {};
    index[span := labels + {value}]
  }

  /** The phrases that occur in a gazetteer stream. */
  function Phrases(data: seq<Entry>): set<string> {
    set p | p in data :: p.0
  }

  /** Every label the stream gives to `span`. */
  function LabelsOf(data: seq<Entry>, span: string): set<string> {
    set p | p in data && p.0 == span :: p.1
  }

  lemma PhrasesSnoc(data: seq<Entry>, p: Entry)
    ensures Phrases(data + [p]) == Phrases(data) + {p.0}
    ensures forall s :: LabelsOf(data + [p], s) == LabelsOf(data, s) + (if s == p.0 then {p.1} else {})
  {
    assert forall q :: q in data + [p] <==> q in data || q == p;
  }

  /** `create_ac`: registers every pair of the stream in order.  Each phrase
      gets exactly one entry, whose labels are all the labels the stream
      gives it. */
  function CreateIndex(data: seq<Entry>): (r: Index)
    ensures r.Keys == Phrases(data)
    ensures forall s :: s in r ==> r[s] == LabelsOf(data, s)
    decreases |data|
  {
    if |data| == 0 then map[]
    else
      var init, last := data[..|data| - 1], data[|data| - 1];
      assert data == init + [last];
      PhrasesSnoc(init, last);
      Register(CreateIndex(init), last.0, last.1)
  }

  /** Registering the same pair twice is the same as registering it once. */
  lemma RegisterIdempotent(index: Index, span: string, value: string)
    ensures Register(Register(index, span, value), span, value) == Register(index, span, value)
  {
  }

  /** Registrations commute: the index does not depend on the order of the stream. */
  lemma RegisterCommutes(index: Index, s1: string, v1: string, s2: string, v2: string)
    ensures Register(Register(index, s1, v1), s2, v2) == Register(Register(index, s2, v2), s1, v1)
  {
    var a := Register(Register(index, s1, v1), s2, v2);
    var b := Register(Register(index, s2, v2), s1, v1);
    assert a.Keys == b.Keys;
    forall s | s in a ensures a[s] == b[s] {
      assert forall l :: l in a[s] <==> l in b[s];
    }
  }

  /** Two streams with the same pairs, in any order and with any repetition,
      build the same index. */
  lemma CreateIndexOrderFree(d1: seq<Entry>, d2: seq<Entry>)
    requires forall p :: p in d1 <==> p in d2
    ensures CreateIndex(d1) == CreateIndex(d2)
  {
    var a, b := CreateIndex(d1), CreateIndex(d2);
    assert Phrases(d1) == Phrases(d2);
    forall s | s in a ensures a[s] == b[s] {
      assert LabelsOf(d1, s) == LabelsOf(d2, s);
    }
  }

  /** Re-registering a pair the stream already holds changes nothing. */
  lemma CreateIndexRepeat(data: seq<Entry>, p: Entry)
    requires p in data
    ensures CreateIndex(data + [p]) == CreateIndex(data)
  {
    CreateIndexOrderFree(data + [p], data);
  }
}

=== FILE: span_matcher.dfy ===
/** `match`: every occurrence of a registered phrase in the space-joined
    tokens, translated from character offsets to token indices and kept only
    when both ends fall on token boundaries. */
module SpanMatcher {
  import opened Text
  import opened PatternIndex

  /** A match `(span, start, end, labels)`: the phrase, the index of its first
      token, the index one past its last token, and the phrase's labels. */
  datatype Entity = Entity(span: string, start: int, end: int, labels: set<string>)

  /** What the automaton reports while scanning: a registered phrase and the
      exclusive character offset at which it ends. */
  datatype Occurrence = Occurrence(end: nat, phrase: string)

  /** `o` is an occurrence of a registered phrase in `text`.  An automaton
      never reports the empty phrase. */
  predicate IsOccurrence(index: Index, text: string, o: Occurrence) {
    && o.phrase in index
    && 0 < |o.phrase| <= o.end <= |text|
    && text[o.end - |o.phrase|..o.end] == o.phrase
  }

  /** The occurrences that end at `end` and are at most `len` characters long,
      longest first. */
  function EndingAt(index: Index, text: string, end: nat, len: nat): (occs: seq<Occurrence>)
    requires len <= end <= |text|
    ensures forall o :: o in occs <==> IsOccurrence(index, text, o) && o.end == end && |o.phrase| <= len
    ensures forall i, j :: 0 <= i < j < |occs| ==> |occs[i].phrase| > |occs[j].phrase|
    decreases len
  {
    if len == 0 then []
    else
      var phrase, rest := text[end - len..end], EndingAt(index, text, end, len - 1);
      assert forall k :: 0 <= k < |rest| ==> rest[k] in rest;
      (if phrase in index then [Occurrence(end, phrase)] else []) + rest
  }

  /** The scan reports `a` before `b`: `a` ends earlier, or it ends at the
      same offset and is longer. */
  predicate ScanBefore(a: Occurrence, b: Occurrence) {
    a.end < b.end || (a.end == b.end && |a.phrase| > |b.phrase|)
  }

  /** The occurrences that end at or before `end`, in order of their ends
      and, at one end, longest first; none is reported twice. */
  function ScanUpTo(index: Index, text: string, end: nat): (occs: seq<Occurrence>)
    requires end <= |text|
    ensures forall o :: o in occs <==> IsOccurrence(index, text, o) && o.end <= end
    ensures forall i, j :: 0 <= i < j < |occs| ==> ScanBefore(occs[i], occs[j])
  {
    if end == 0 then []
    else
      var before, here := ScanUpTo(index, text, end - 1), EndingAt(index, text, end, end);
      assert forall k :: 0 <= k < |before| ==> before[k] in before;
      assert forall k :: 0 <= k < |here| ==> here[k] in here;
      before + here
  }

  /** A naive scanner standing for `AC.iter(text)`: it reports every
      occurrence of every registered phrase, and nothing else, ordered by
      where the occurrence ends and, at one end, longest first, as the
      automaton follows its output links from the longest suffix down. */
  function Scan(index: Index, text: string): (occs: seq<Occurrence>)
    ensures forall o :: o in occs <==> IsOccurrence(index, text, o)
    ensures forall i, j :: 0 <= i < j < |occs| ==> ScanBefore(occs[i], occs[j])
  {
    ScanUpTo(index, text, |text|)
  }

  /** The two offset tables `match` builds before scanning: `smap` sends the
      character offset where each token starts to the token's index, `emap`
      sends the exclusive offset where each token ends to the token's index,
      and neither table holds any other key. */
  method OffsetMaps(tokens: seq<string>) returns (smap: map<int, nat>, emap: map<int, nat>)
    ensures forall i :: 0 <= i < |tokens| ==> TokenStart(tokens, i) in smap && smap[TokenStart(tokens, i)] == i
    ensures forall k :: k in smap ==> smap[k] < |tokens| && k == TokenStart(tokens, smap[k])
    ensures forall i :: 0 <= i < |tokens| ==> TokenEnd(tokens, i) in emap && emap[TokenEnd(tokens, i)] == i
    ensures forall k :: k in emap ==> emap[k] < |tokens| && k == TokenEnd(tokens, emap[k])
  {
    smap, emap := map[], map[];
    var idx := 0;
    for i := 0 to |tokens|
      invariant idx == TokenStart(tokens, i)
      invariant forall j :: 0 <= j < i ==> TokenStart(tokens, j) in smap && smap[TokenStart(tokens, j)] == j
      invariant forall k :: k in smap ==> smap[k] < i && k == TokenStart(tokens, smap[k])
      invariant forall j :: 0 <= j < i ==> TokenEnd(tokens, j) in emap && emap[TokenEnd(tokens, j)] == j
      invariant forall k :: k in emap ==> emap[k] < i && k == TokenEnd(tokens, emap[k])
    {
      forall j | 0 <= j < i
        ensures TokenStart(tokens, j) < TokenStart(tokens, i)
        ensures TokenEnd(tokens, j) < TokenStart(tokens, i)
      {
        TokenStartMonotone(tokens, j, i);
      }
      smap := smap[idx := i];
      idx := idx + |tokens[i]|;
      emap := emap[idx := i];
      idx := idx + 1;
      TokenStartStep(tokens, i);
    }
  }

  /** `m` is a word-aligned occurrence of a registered phrase: its tokens,
      joined by single spaces, spell the phrase, and it carries the phrase's
      whole label set. */
  predicate IsAlignedMatch(index: Index, tokens: seq<string>, m: Entity) {
    && 0 <= m.start < m.end <= |tokens|
    && m.span == Join(tokens[m.start..m.end])
    && m.span != ""
    && m.span in index
    && m.labels == index[m.span]
  }

  /** An occurrence whose first and last characters line up with the start of
      token `s` and the end of token `e` spells the tokens `s..e + 1`. */
  lemma AlignedOccurrence(index: Index, tokens: seq<string>, o: Occurrence, s: nat, e: nat)
    requires s < |tokens| && e < |tokens|
    requires IsOccurrence(index, Join(tokens), o)
    requires TokenStart(tokens, s) == o.end - |o.phrase| && TokenEnd(tokens, e) == o.end
    ensures s <= e
    ensures o.phrase == Join(tokens[s..e + 1])
  {
    TokenRangeOrder(tokens, s, e, |o.phrase|);
    TokenRangeText(tokens, s, e, o.phrase);
  }

  /** A non-empty stretch of text from token `s`'s start to token `e`'s end
      has `s <= e`. */
  lemma TokenRangeOrder(tokens: seq<string>, s: nat, e: nat, len: nat)
    requires s < |tokens| && e < |tokens| && 0 < len
    requires TokenStart(tokens, s) + len == TokenEnd(tokens, e)
    ensures s <= e
  {
    if e < s {
      TokenStartMonotone(tokens, e, s);
    }
  }

  /** The text from token `s`'s start to token `e`'s end is the join of
      tokens `s..e + 1`. */
  lemma TokenRangeText(tokens: seq<string>, s: nat, e: nat, phrase: string)
    requires s <= e < |tokens|
    requires TokenStart(tokens, s) <= TokenEnd(tokens, e) <= |Join(tokens)|
    requires Join(tokens)[TokenStart(tokens, s)..TokenEnd(tokens, e)] == phrase
    ensures phrase == Join(tokens[s..e + 1])
  {
    JoinSlice(tokens, s, e + 1);
  }

  /** An occurrence whose first character is where token `s` starts and
      whose end is where token `e` ends is a word-aligned match of the tokens
      `s..e + 1`. */
  lemma AlignedEntity(index: Index, tokens: seq<string>, o: Occurrence, s: nat, e: nat)
    requires s < |tokens| && e < |tokens|
    requires IsOccurrence(index, Join(tokens), o)
    requires TokenStart(tokens, s) == o.end - |o.phrase| && TokenEnd(tokens, e) == o.end
    ensures IsAlignedMatch(index, tokens, Entity(o.phrase, s, e + 1, index[o.phrase]))
  {
    AlignedOccurrence(index, tokens, o, s, e);
    var phrase, end := o.phrase, e + 1;
    assert s < end <= |tokens| && phrase == Join(tokens[s..end]);
    AlignedMatchOf(index, tokens, phrase, s, end);
  }

  /** A registered, non-empty phrase that tokens `s..e` spell gives the
      aligned match `(phrase, s, e, labels)`. */
  lemma AlignedMatchOf(index: Index, tokens: seq<string>, phrase: string, s: nat, e: nat)
    requires s < e <= |tokens| && phrase == Join(tokens[s..e])
    requires phrase != "" && phrase in index
    ensures IsAlignedMatch(index, tokens, Entity(phrase, s, e, index[phrase]))
  {
  }

  /** The tokens `s..e`, when they spell a registered phrase, are an
      occurrence of it that starts at token `s` and ends with token `e - 1`. */
  lemma AlignedAsOccurrence(index: Index, tokens: seq<string>, s: nat, e: nat) returns (o: Occurrence)
    requires s < e <= |tokens|
    requires Join(tokens[s..e]) != "" && Join(tokens[s..e]) in index
    ensures o == Occurrence(TokenEnd(tokens, e - 1), Join(tokens[s..e]))
    ensures IsOccurrence(index, Join(tokens), o)
    ensures o.end - |o.phrase| == TokenStart(tokens, s)
  {
    JoinSlice(tokens, s, e);
    o := Occurrence(TokenEnd(tokens, e - 1), Join(tokens[s..e]));
  }

  /** The entity `match` makes of occurrence `o` is in `spans`, if both ends
      of `o` are in the offset tables. */
  predicate Kept(index: Index, smap: map<int, nat>, emap: map<int, nat>, o: Occurrence, spans: seq<Entity>) {
    o.phrase in index && o.end - |o.phrase| in smap && o.end in emap ==>
    Entity(o.phrase, smap[o.end - |o.phrase|], emap[o.end] + 1, index[o.phrase]) in spans
  }

  /** Appending to the output keeps what was kept. */
  lemma KeptGrows(index: Index, smap: map<int, nat>, emap: map<int, nat>, occs: seq<Occurrence>,
                  spans: seq<Entity>, m: Entity)
    requires forall j :: 0 <= j < |occs| ==> Kept(index, smap, emap, occs[j], spans)
    ensures forall j :: 0 <= j < |occs| ==> Kept(index, smap, emap, occs[j], spans + [m])
  {
    forall j | 0 <= j < |occs| ensures Kept(index, smap, emap, occs[j], spans + [m]) {
      assert Kept(index, smap, emap, occs[j], spans);
    }
  }

  /** If every occurrence was kept when aligned, then every word-aligned
      occurrence of a registered phrase was reported. */
  lemma MatchComplete(index: Index, tokens: seq<string>, smap: map<int, nat>, emap: map<int, nat>,
                      occs: seq<Occurrence>, spans: seq<Entity>)
    requires forall i :: 0 <= i < |tokens| ==> TokenStart(tokens, i) in smap && smap[TokenStart(tokens, i)] == i
    requires forall i :: 0 <= i < |tokens| ==> TokenEnd(tokens, i) in emap && emap[TokenEnd(tokens, i)] == i
    requires forall o :: IsOccurrence(index, Join(tokens), o) ==> o in occs
    requires forall j :: 0 <= j < |occs| ==> Kept(index, smap, emap, occs[j], spans)
    ensures forall s: nat, e: nat ::
              s < e <= |tokens| && Join(tokens[s..e]) != "" && Join(tokens[s..e]) in index ==>
              Entity(Join(tokens[s..e]), s, e, index[Join(tokens[s..e])]) in spans
  {
    forall s: nat, e: nat | s < e <= |tokens| && Join(tokens[s..e]) != "" && Join(tokens[s..e]) in index
      ensures Entity(Join(tokens[s..e]), s, e, index[Join(tokens[s..e])]) in spans
    {
      var o := AlignedAsOccurrence(index, tokens, s, e);
      MatchCompleteAt(index, tokens, smap, emap, occs, spans, o, s, e);
    }
  }

  /** One aligned occurrence, reported somewhere in `occs`, was kept as the
      entity of tokens `s..e`. */
  lemma MatchCompleteAt(index: Index, tokens: seq<string>, smap: map<int, nat>, emap: map<int, nat>,
                        occs: seq<Occurrence>, spans: seq<Entity>, o: Occurrence, s: nat, e: nat)
    requires s < e <= |tokens|
    requires TokenStart(tokens, s) in smap && smap[TokenStart(tokens, s)] == s
    requires TokenEnd(tokens, e - 1) in emap && emap[TokenEnd(tokens, e - 1)] == e - 1
    requires o in occs && o.phrase in index
    requires o.end == TokenEnd(tokens, e - 1) && o.end - |o.phrase| == TokenStart(tokens, s)
    requires forall j :: 0 <= j < |occs| ==> Kept(index, smap, emap, occs[j], spans)
    ensures Entity(o.phrase, s, e, index[o.phrase]) in spans
  {
    var j :| 0 <= j < |occs| && occs[j] == o;
    assert Kept(index, smap, emap, occs[j], spans);
  }

  /** The loop of `match` over the automaton's output: an occurrence becomes
      an entity exactly when its start is a key of `smap` and its end a key
      of `emap`. */
  method KeepAligned(index: Index, tokens: seq<string>, smap: map<int, nat>, emap: map<int, nat>,
                     occs: seq<Occurrence>) returns (spans: seq<Entity>)
    requires forall k :: k in smap ==> smap[k] < |tokens| && k == TokenStart(tokens, smap[k])
    requires forall k :: k in emap ==> emap[k] < |tokens| && k == TokenEnd(tokens, emap[k])
    requires forall j :: 0 <= j < |occs| ==> IsOccurrence(index, Join(tokens), occs[j])
    requires forall i, j :: 0 <= i < j < |occs| ==> ScanBefore(occs[i], occs[j])
    ensures forall i :: 0 <= i < |spans| ==> IsAlignedMatch(index, tokens, spans[i])
    ensures forall j :: 0 <= j < |occs| ==> Kept(index, smap, emap, occs[j], spans)
    ensures forall p, q :: 0 <= p < q < |spans| ==> Precedes(spans[p], spans[q])
  {
    spans := [];
    for k := 0 to |occs|
      invariant forall i :: 0 <= i < |spans| ==> IsAlignedMatch(index, tokens, spans[i])
      invariant forall j :: 0 <= j < k ==> Kept(index, smap, emap, occs[j], spans)
      invariant forall p, q :: 0 <= p < q < |spans| ==> Precedes(spans[p], spans[q])
      invariant k < |occs| ==> forall p :: 0 <= p < |spans| ==> EntityBefore(tokens, spans[p], occs[k])
    {
      KeepOneStep(index, tokens, smap, emap, occs, k, spans);
      KeepOneOrdered(index, tokens, smap, emap, occs, k, spans);
      spans := KeepOne(index, smap, emap, occs[k], spans);
    }
  }

  /** `a` comes before `b` in the output of `match`: it ends at an earlier
      token, or at the same token and starts at an earlier one. */
  predicate Precedes(a: Entity, b: Entity) {
    a.end < b.end || (a.end == b.end && a.start < b.start)
  }

  /** Entity `m` lies at character offsets that the scan reaches before
      occurrence `o`: its last token ends before `o` does, or ends where `o`
      does and its first token starts before `o` starts. */
  predicate EntityBefore(tokens: seq<string>, m: Entity, o: Occurrence) {
    && 0 <= m.start < m.end <= |tokens|
    && (|| TokenEnd(tokens, m.end - 1) < o.end
        || (TokenEnd(tokens, m.end - 1) == o.end && TokenStart(tokens, m.start) < o.end - |o.phrase|))
  }

  /** The loop body keeps the output in the scan's order: the entries stay
      ordered, and each lies before the next occurrence to come. */
  lemma KeepOneOrdered(index: Index, tokens: seq<string>, smap: map<int, nat>, emap: map<int, nat>,
                       occs: seq<Occurrence>, k: nat, spans: seq<Entity>)
    requires forall k :: k in smap ==> smap[k] < |tokens| && k == TokenStart(tokens, smap[k])
    requires forall k :: k in emap ==> emap[k] < |tokens| && k == TokenEnd(tokens, emap[k])
    requires forall j :: 0 <= j < |occs| ==> occs[j].phrase in index && 0 < |occs[j].phrase|
    requires forall i, j :: 0 <= i < j < |occs| ==> ScanBefore(occs[i], occs[j])
    requires k < |occs|
    requires forall p, q :: 0 <= p < q < |spans| ==> Precedes(spans[p], spans[q])
    requires forall p :: 0 <= p < |spans| ==> EntityBefore(tokens, spans[p], occs[k])
    ensures occs[k].phrase in index
    ensures var r := KeepOne(index, smap, emap, occs[k], spans);
            && (forall p, q :: 0 <= p < q < |r| ==> Precedes(r[p], r[q]))
            && (k + 1 < |occs| ==> forall p :: 0 <= p < |r| ==> EntityBefore(tokens, r[p], occs[k + 1]))
  {
    var o := occs[k];
    var sidx := o.end - |o.phrase|;
    if sidx in smap && o.end in emap {
      var s0, e0 := smap[sidx], emap[o.end];
      assert s0 < |tokens| && TokenStart(tokens, s0) == sidx;
      assert e0 < |tokens| && TokenEnd(tokens, e0) == o.end;
      KeepOneOrderedAt(index, tokens, smap, emap, occs, k, spans, s0, e0);
    } else {
      KeepOneOrderedSkip(index, tokens, smap, emap, occs, k, spans);
    }
  }

  /** The same, when occurrence `k` is not kept. */
  lemma KeepOneOrderedSkip(index: Index, tokens: seq<string>, smap: map<int, nat>, emap: map<int, nat>,
                           occs: seq<Occurrence>, k: nat, spans: seq<Entity>)
    requires k < |occs| && occs[k].phrase in index
    requires forall i, j :: 0 <= i < j < |occs| ==> ScanBefore(occs[i], occs[j])
    requires !(occs[k].end - |occs[k].phrase| in smap && occs[k].end in emap)
    requires forall p, q :: 0 <= p < q < |spans| ==> Precedes(spans[p], spans[q])
    requires forall p :: 0 <= p < |spans| ==> EntityBefore(tokens, spans[p], occs[k])
    ensures var r := KeepOne(index, smap, emap, occs[k], spans);
            && (forall p, q :: 0 <= p < q < |r| ==> Precedes(r[p], r[q]))
            && (k + 1 < |occs| ==> forall p :: 0 <= p < |r| ==> EntityBefore(tokens, r[p], occs[k + 1]))
  {
    KeepOneResult(index, smap, emap, occs[k], spans);
    if k + 1 < |occs| {
      BeforeNext(tokens, spans, occs[k], occs[k + 1]);
    }
  }

  /** The same, when occurrence `k` starts at token `s0` and ends with token
      `e0`. */
  lemma KeepOneOrderedAt(index: Index, tokens: seq<string>, smap: map<int, nat>, emap: map<int, nat>,
                         occs: seq<Occurrence>, k: nat, spans: seq<Entity>, s0: nat, e0: nat)
    requires k < |occs| && occs[k].phrase in index && 0 < |occs[k].phrase|
    requires forall i, j :: 0 <= i < j < |occs| ==> ScanBefore(occs[i], occs[j])
    requires occs[k].end - |occs[k].phrase| in smap && smap[occs[k].end - |occs[k].phrase|] == s0
    requires occs[k].end in emap && emap[occs[k].end] == e0
    requires s0 < |tokens| && TokenStart(tokens, s0) == occs[k].end - |occs[k].phrase|
    requires e0 < |tokens| && TokenEnd(tokens, e0) == occs[k].end
    requires forall p, q :: 0 <= p < q < |spans| ==> Precedes(spans[p], spans[q])
    requires forall p :: 0 <= p < |spans| ==> EntityBefore(tokens, spans[p], occs[k])
    ensures var r := KeepOne(index, smap, emap, occs[k], spans);
            && (forall p, q :: 0 <= p < q < |r| ==> Precedes(r[p], r[q]))
            && (k + 1 < |occs| ==> forall p :: 0 <= p < |r| ==> EntityBefore(tokens, r[p], occs[k + 1]))
  {
    var o := occs[k];
    OrderedEntityAppend(tokens, occs, k, spans, Entity(o.phrase, s0, e0 + 1, index[o.phrase]));
    KeepOneResult(index, smap, emap, o, spans);
  }

  /** Appending the entity `m` of occurrence `k`, whose first and last tokens
      sit at the occurrence's offsets, keeps the output in the scan's order. */
  lemma OrderedEntityAppend(tokens: seq<string>, occs: seq<Occurrence>, k: nat, spans: seq<Entity>, m: Entity)
    requires k < |occs| && 0 < |occs[k].phrase|
    requires forall i, j :: 0 <= i < j < |occs| ==> ScanBefore(occs[i], occs[j])
    requires 0 <= m.start < |tokens| && 0 < m.end <= |tokens|
    requires TokenStart(tokens, m.start) == occs[k].end - |occs[k].phrase| && TokenEnd(tokens, m.end - 1) == occs[k].end
    requires forall p, q :: 0 <= p < q < |spans| ==> Precedes(spans[p], spans[q])
    requires forall p :: 0 <= p < |spans| ==> EntityBefore(tokens, spans[p], occs[k])
    ensures forall p, q :: 0 <= p < q < |spans + [m]| ==> Precedes((spans + [m])[p], (spans + [m])[q])
    ensures k + 1 < |occs| ==> forall p :: 0 <= p < |spans + [m]| ==> EntityBefore(tokens, (spans + [m])[p], occs[k + 1])
  {
    TokenRangeOrder(tokens, m.start, m.end - 1, |occs[k].phrase|);
    OrderedAppend(tokens, spans, m, occs[k]);
    if k + 1 < |occs| {
      assert ScanBefore(occs[k], occs[k + 1]);
      assert EntityBefore(tokens, m, occs[k + 1]);
      BeforeNext(tokens, spans, occs[k], occs[k + 1]);
      BeforeAppend(tokens, spans, m, occs[k + 1]);
    }
  }

  /** Appending the entity of occurrence `o` after entries that lie before
      `o` keeps the output ordered. */
  lemma OrderedAppend(tokens: seq<string>, spans: seq<Entity>, m: Entity, o: Occurrence)
    requires 0 <= m.start < m.end <= |tokens|
    requires TokenStart(tokens, m.start) == o.end - |o.phrase| && TokenEnd(tokens, m.end - 1) == o.end
    requires forall p, q :: 0 <= p < q < |spans| ==> Precedes(spans[p], spans[q])
    requires forall p :: 0 <= p < |spans| ==> EntityBefore(tokens, spans[p], o)
    ensures forall p, q :: 0 <= p < q < |spans + [m]| ==> Precedes((spans + [m])[p], (spans + [m])[q])
  {
    forall p, q | 0 <= p < q < |spans + [m]| ensures Precedes((spans + [m])[p], (spans + [m])[q]) {
      var a := spans[p];
      assert (spans + [m])[p] == a;
      if q < |spans| {
        assert (spans + [m])[q] == spans[q];
      } else {
        assert EntityBefore(tokens, a, o);
        TokenIndexOrder(tokens, a.end - 1, m.end - 1);
        TokenIndexOrder(tokens, a.start, m.start);
      }
    }
  }

  /** What lies before an occurrence lies before every occurrence the scan
      reports after it. */
  lemma BeforeNext(tokens: seq<string>, spans: seq<Entity>, a: Occurrence, b: Occurrence)
    requires ScanBefore(a, b)
    requires forall p :: 0 <= p < |spans| ==> EntityBefore(tokens, spans[p], a)
    ensures forall p :: 0 <= p < |spans| ==> EntityBefore(tokens, spans[p], b)
  {
  }

  /** Appending an entry that lies before `o` keeps every entry before `o`. */
  lemma BeforeAppend(tokens: seq<string>, spans: seq<Entity>, m: Entity, o: Occurrence)
    requires forall p :: 0 <= p < |spans| ==> EntityBefore(tokens, spans[p], o)
    requires EntityBefore(tokens, m, o)
    ensures forall p :: 0 <= p < |spans + [m]| ==> EntityBefore(tokens, (spans + [m])[p], o)
  {
    forall p | 0 <= p < |spans + [m]| ensures EntityBefore(tokens, (spans + [m])[p], o) {
      if p < |spans| {
        assert (spans + [m])[p] == spans[p];
      }
    }
  }

  /** One pass of the loop body: the entity of occurrence `o` is appended
      when its start is a key of `smap` and its end a key of `emap`. */
  function KeepOne(index: Index, smap: map<int, nat>, emap: map<int, nat>, o: Occurrence, spans: seq<Entity>): seq<Entity>
    requires o.phrase in index
  {
    var sidx := o.end - |o.phrase|;
    if sidx in smap && o.end in emap then spans + [Entity(o.phrase, smap[sidx], emap[o.end] + 1, index[o.phrase])]
    else spans
  }

  /** The loop body keeps its two invariants: every entry is an aligned
      match, and every occurrence seen so far was kept when aligned. */
  lemma KeepOneStep(index: Index, tokens: seq<string>, smap: map<int, nat>, emap: map<int, nat>,
                    occs: seq<Occurrence>, k: nat, spans: seq<Entity>)
    requires forall k :: k in smap ==> smap[k] < |tokens| && k == TokenStart(tokens, smap[k])
    requires forall k :: k in emap ==> emap[k] < |tokens| && k == TokenEnd(tokens, emap[k])
    requires forall j :: 0 <= j < |occs| ==> IsOccurrence(index, Join(tokens), occs[j])
    requires k < |occs|
    requires forall i :: 0 <= i < |spans| ==> IsAlignedMatch(index, tokens, spans[i])
    requires forall j :: 0 <= j < k ==> Kept(index, smap, emap, occs[j], spans)
    ensures occs[k].phrase in index
    ensures var r := KeepOne(index, smap, emap, occs[k], spans);
            && (forall i :: 0 <= i < |r| ==> IsAlignedMatch(index, tokens, r[i]))
            && (forall j :: 0 <= j < k + 1 ==> Kept(index, smap, emap, occs[j], r))
  {
    assert IsOccurrence(index, Join(tokens), occs[k]);
    KeepOneAligned(index, tokens, smap, emap, occs[k], spans);
    KeepOneKept(index, smap, emap, occs, k, spans);
  }

  /** The loop body appends only aligned matches. */
  lemma KeepOneAligned(index: Index, tokens: seq<string>, smap: map<int, nat>, emap: map<int, nat>,
                       o: Occurrence, spans: seq<Entity>)
    requires forall k :: k in smap ==> smap[k] < |tokens| && k == TokenStart(tokens, smap[k])
    requires forall k :: k in emap ==> emap[k] < |tokens| && k == TokenEnd(tokens, emap[k])
    requires IsOccurrence(index, Join(tokens), o)
    requires forall i :: 0 <= i < |spans| ==> IsAlignedMatch(index, tokens, spans[i])
    ensures var r := KeepOne(index, smap, emap, o, spans);
            forall i :: 0 <= i < |r| ==> IsAlignedMatch(index, tokens, r[i])
  {
    var sidx := o.end - |o.phrase|;
    if sidx in smap && o.end in emap {
      var s0, e0 := smap[sidx], emap[o.end];
      assert s0 < |tokens| && TokenStart(tokens, s0) == sidx;
      assert e0 < |tokens| && TokenEnd(tokens, e0) == o.end;
      AlignedEntityAppend(index, tokens, o, s0, e0, spans);
    }
    KeepOneResult(index, smap, emap, o, spans);
  }

  /** The loop body appends the occurrence's entity exactly when both of
      its ends fall on token boundaries. */
  lemma KeepOneResult(index: Index, smap: map<int, nat>, emap: map<int, nat>, o: Occurrence, spans: seq<Entity>)
    requires o.phrase in index
    ensures var sidx := o.end - |o.phrase|;
            && (sidx in smap && o.end in emap ==>
                  KeepOne(index, smap, emap, o, spans) == spans + [Entity(o.phrase, smap[sidx], emap[o.end] + 1, index[o.phrase])])
            && (!(sidx in smap && o.end in emap) ==> KeepOne(index, smap, emap, o, spans) == spans)
  {
  }

  /** Appending the entity of an occurrence that starts at token `s` and
      ends with token `e` keeps every entry an aligned match. */
  lemma AlignedEntityAppend(index: Index, tokens: seq<string>, o: Occurrence, s: nat, e: nat, spans: seq<Entity>)
    requires s < |tokens| && e < |tokens|
    requires IsOccurrence(index, Join(tokens), o)
    requires TokenStart(tokens, s) == o.end - |o.phrase| && TokenEnd(tokens, e) == o.end
    requires forall i :: 0 <= i < |spans| ==> IsAlignedMatch(index, tokens, spans[i])
    ensures var r := spans + [Entity(o.phrase, s, e + 1, index[o.phrase])];
            forall i :: 0 <= i < |r| ==> IsAlignedMatch(index, tokens, r[i])
  {
    AlignedEntity(index, tokens, o, s, e);
    AlignedAppend(index, tokens, spans, Entity(o.phrase, s, e + 1, index[o.phrase]));
  }

  /** After the loop body for occurrence `k`, every occurrence up to and
      including `k` was kept when aligned. */
  lemma KeepOneKept(index: Index, smap: map<int, nat>, emap: map<int, nat>, occs: seq<Occurrence>,
                    k: nat, spans: seq<Entity>)
    requires k < |occs| && occs[k].phrase in index
    requires forall j :: 0 <= j < k ==> Kept(index, smap, emap, occs[j], spans)
    ensures forall j :: 0 <= j < k + 1 ==> Kept(index, smap, emap, occs[j], KeepOne(index, smap, emap, occs[k], spans))
  {
    var o := occs[k];
    var sidx := o.end - |o.phrase|;
    if sidx in smap && o.end in emap {
      var m := Entity(o.phrase, smap[sidx], emap[o.end] + 1, index[o.phrase]);
      KeptAppend(index, smap, emap, occs, k, spans, m);
    }
    KeepOneResult(index, smap, emap, o, spans);
  }

  /** Appending the entity of occurrence `k` keeps every occurrence up to and
      including `k`. */
  lemma KeptAppend(index: Index, smap: map<int, nat>, emap: map<int, nat>, occs: seq<Occurrence>,
                   k: nat, spans: seq<Entity>, m: Entity)
    requires k < |occs|
    requires forall j :: 0 <= j < k ==> Kept(index, smap, emap, occs[j], spans)
    requires occs[k].phrase in index && occs[k].end - |occs[k].phrase| in smap && occs[k].end in emap
    requires m == Entity(occs[k].phrase, smap[occs[k].end - |occs[k].phrase|], emap[occs[k].end] + 1, index[occs[k].phrase])
    ensures forall j :: 0 <= j < k + 1 ==> Kept(index, smap, emap, occs[j], spans + [m])
  {
    KeptGrows(index, smap, emap, occs[..k], spans, m);
    forall j | 0 <= j < k + 1 ensures Kept(index, smap, emap, occs[j], spans + [m]) {
      if j < k {
        assert occs[..k][j] == occs[j];
      } else {
        assert (spans + [m])[|spans|] == m;
      }
    }
  }

  /** Appending an aligned match keeps every entry aligned. */
  lemma AlignedAppend(index: Index, tokens: seq<string>, spans: seq<Entity>, m: Entity)
    requires forall i :: 0 <= i < |spans| ==> IsAlignedMatch(index, tokens, spans[i])
    requires IsAlignedMatch(index, tokens, m)
    ensures forall i :: 0 <= i < |spans + [m]| ==> IsAlignedMatch(index, tokens, (spans + [m])[i])
  {
    forall i | 0 <= i < |spans + [m]| ensures IsAlignedMatch(index, tokens, (spans + [m])[i]) {
      if i < |spans| {
        assert (spans + [m])[i] == spans[i];
      }
    }
  }

  /** `match`: builds the offset tables, scans the joined tokens, and keeps
      each occurrence whose start and end both fall on token boundaries.
      Every reported entity is a word-aligned occurrence of a registered
      phrase with the phrase's labels, and every word-aligned occurrence of a
      registered phrase is reported.  The entities come in the scan's
      order: by last token, and at one last token longest first, so none is
      reported twice. */
  method Match(index: Index, tokens: seq<string>) returns (spans: seq<Entity>)
    ensures forall m :: m in spans ==> IsAlignedMatch(index, tokens, m)
    ensures forall s: nat, e: nat ::
              s < e <= |tokens| && Join(tokens[s..e]) != "" && Join(tokens[s..e]) in index ==>
              Entity(Join(tokens[s..e]), s, e, index[Join(tokens[s..e])]) in spans
    ensures forall p, q :: 0 <= p < q < |spans| ==> Precedes(spans[p], spans[q]) && spans[p] != spans[q]
    ensures |tokens| == 0 ==> spans == []
  {
    var smap, emap := OffsetMaps(tokens);
    var occs := Scan(index, Join(tokens));
    assert forall j :: 0 <= j < |occs| ==> occs[j] in occs;
    spans := KeepAligned(index, tokens, smap, emap, occs);
    assert |spans| > 0 ==> spans[0] in spans;
    MatchComplete(index, tokens, smap, emap, occs, spans);
  }

  /** When every token is a word, the phrase of an aligned match splits back
      into exactly the tokens it covers, so its word count is `end - start`. */
  lemma AlignedMatchWords(index: Index, tokens: seq<string>, m: Entity)
    requires IsAlignedMatch(index, tokens, m)
    requires forall k :: 0 <= k < |tokens| ==> IsWord(tokens[k])
    ensures Split(m.span) == tokens[m.start..m.end]
    ensures |Split(m.span)| == m.end - m.start
  {
    SplitJoin(tokens[m.start..m.end]);
  }
}

=== FILE: tag_decoder.dfy ===
/** Reading BILOU tags back into entity ranges.  Decoding the tags of a set
    of non-overlapping entities gives back exactly those entities' ranges and
    label texts.  The phrase itself is lost, and the label set survives only
    as its comma-joined text, which determines the set when no label is empty
    or contains a comma. */
module TagDecoder {
  import opened SpanMatcher
  import opened OverlapResolver
  import opened TagEncoder

  /** A decoded entity: its token range and the label text of its tags. */
  datatype Chunk = Chunk(start: nat, end: nat, text: string)

  /** The chunk that the tags of entity `m` spell. */
  function ChunkOf(m: Entity): Chunk
    requires 0 <= m.start <= m.end
  {
    Chunk(m.start, m.end, LabelText(m.labels))
  }

  /** `t` is a tag with the one-letter prefix `p`. */
  predicate HasPrefix(t: string, p: char) {
    |t| >= 2 && t[0] == p && t[1] == '-'
  }

  /** The first position from `j` on whose tag is not `I-<text>`. */
  function InsideEnd(tags: seq<string>, j: nat, text: string): (e: nat)
    requires j <= |tags|
    ensures j <= e <= |tags|
    ensures forall p :: j <= p < e ==> tags[p] == "I-" + text
    ensures e < |tags| ==> tags[e] != "I-" + text
    decreases |tags| - j
  {
    if j < |tags| && tags[j] == "I-" + text then InsideEnd(tags, j + 1, text) else j
  }

  /** The chunks the tags from position `i` on spell, in order: a `U-` tag
      alone, or a `B-` tag followed by `I-` tags and an `L-` tag with the
      same label text.  Any other tag, and a `B-` tag that is not closed,
      is skipped. */
  function Decode(tags: seq<string>, i: nat): (cs: seq<Chunk>)
    requires i <= |tags|
    ensures forall c :: c in cs ==> i <= c.start < c.end <= |tags|
    decreases |tags| - i
  {
    if i == |tags| then []
    else
      var t := tags[i];
      if HasPrefix(t, 'U') then [Chunk(i, i + 1, t[2..])] + Decode(tags, i + 1)
      else if HasPrefix(t, 'B') then
        var e := InsideEnd(tags, i + 1, t[2..]);
        if e < |tags| && tags[e] == "L-" + t[2..] then [Chunk(i, e + 1, t[2..])] + Decode(tags, e + 1)
        else Decode(tags, i + 1)
      else Decode(tags, i + 1)
  }

  /** The entities are non-overlapping and lie within the tokens. */
  predicate WellPlaced(tokens: seq<string>, es: seq<Entity>) {
    && Disjoint(es)
    && forall k :: 0 <= k < |es| ==> 0 <= es[k].start < es[k].end <= |tokens|
  }

  /** No entity straddles position `i`. */
  predicate Boundary(es: seq<Entity>, i: int) {
    forall k :: 0 <= k < |es| ==> !(es[k].start < i < es[k].end)
  }

  /** Positions `i..e` hold one entity's tags: `U-<text>` alone, or
      `B-<text>`, then `I-<text>` tags, then `L-<text>`. */
  predicate BlockTags(tags: seq<string>, i: nat, e: nat, text: string) {
    && i < e <= |tags|
    && (e - i == 1 ==> tags[i] == "U-" + text)
    && (e - i >= 2 ==>
          && tags[i] == "B-" + text
          && (forall p :: i < p < e - 1 ==> tags[p] == "I-" + text)
          && tags[e - 1] == "L-" + text)
  }

  /** One entity's tags decode to one chunk, and decoding resumes after
      them. */
  lemma DecodeBlock(tags: seq<string>, i: nat, e: nat, text: string)
    requires BlockTags(tags, i, e, text)
    ensures Decode(tags, i) == [Chunk(i, e, text)] + Decode(tags, e)
  {
    var t := tags[i];
    assert t[2..] == text;
    if e - i >= 2 {
      assert !HasPrefix(t, 'U');
      assert ("L-" + text)[0] != ("I-" + text)[0];
      InsideEndAt(tags, i + 1, text, e - 1);
    }
  }

  /** The tags of an entity among non-overlapping ones form its block. */
  lemma EntityBlock(tokens: seq<string>, es: seq<Entity>, k: nat)
    requires WellPlaced(tokens, es) && k < |es|
    ensures BlockTags(ToBilou(tokens, es), es[k].start, es[k].end, LabelText(es[k].labels))
  {
    BilouShape(tokens, es, k);
  }

  /** Decoding from the first token of an entity reads the entity whole and
      resumes at its end. */
  lemma DecodeEntity(tokens: seq<string>, es: seq<Entity>, k: nat)
    requires WellPlaced(tokens, es) && k < |es|
    ensures var tags, m := ToBilou(tokens, es), es[k];
            Decode(tags, m.start) == [ChunkOf(m)] + Decode(tags, m.end)
  {
    EntityBlock(tokens, es, k);
    DecodeBlock(ToBilou(tokens, es), es[k].start, es[k].end, LabelText(es[k].labels));
  }

  /** `InsideEnd` stops at the first tag that is not `I-<text>`. */
  lemma {:induction false} InsideEndAt(tags: seq<string>, j: nat, text: string, e: nat)
    requires j <= e < |tags|
    requires forall p :: j <= p < e ==> tags[p] == "I-" + text
    requires tags[e] != "I-" + text
    ensures InsideEnd(tags, j, text) == e
    decreases e - j
  {
    if j < e {
      InsideEndAt(tags, j + 1, text, e);
    }
  }

  /** The chunks of the entities that start at `i` or later. */
  ghost predicate ChunkFrom(es: seq<Entity>, i: int, c: Chunk) {
    exists k :: 0 <= k < |es| && 0 <= i <= es[k].start <= es[k].end && c == ChunkOf(es[k])
  }

  /** An entity that starts at a boundary ends at one, and every other
      entity that starts no earlier starts at or after its end. */
  lemma CoveredStep(tokens: seq<string>, es: seq<Entity>, k: nat)
    requires WellPlaced(tokens, es) && k < |es|
    ensures Boundary(es, es[k].end)
    ensures forall j :: 0 <= j < |es| && j != k && es[k].start <= es[j].start ==> es[k].end <= es[j].start
  {
    forall j | 0 <= j < |es| && j != k
      ensures !(es[j].start < es[k].end < es[j].end)
      ensures es[k].start <= es[j].start ==> es[k].end <= es[j].start
    {
      assert !Overlap(es[k], es[j]);
    }
  }

  /** Prepending the chunk of the entity at `i` to the chunks from its end
      gives the chunks from `i`. */
  lemma ChunksCovered(tokens: seq<string>, es: seq<Entity>, k: nat, cs: seq<Chunk>, rest: seq<Chunk>)
    requires WellPlaced(tokens, es) && k < |es|
    requires forall j :: 0 <= j < |es| && j != k && es[k].start <= es[j].start ==> es[k].end <= es[j].start
    requires cs == [ChunkOf(es[k])] + rest
    requires forall c :: c in rest <==> ChunkFrom(es, es[k].end, c)
    ensures forall c :: c in cs <==> ChunkFrom(es, es[k].start, c)
  {
    forall c ensures c in cs <==> ChunkFrom(es, es[k].start, c) {
      if ChunkFrom(es, es[k].start, c) {
        var j :| 0 <= j < |es| && 0 <= es[k].start <= es[j].start <= es[j].end && c == ChunkOf(es[j]);
        if j != k {
          assert ChunkFrom(es, es[k].end, c);
        }
      }
    }
  }

  /** Past a token no entity covers, the chunks from the next position are
      the chunks from this one. */
  lemma ChunksUncovered(tokens: seq<string>, es: seq<Entity>, i: nat, cs: seq<Chunk>)
    requires WellPlaced(tokens, es)
    requires forall j :: 0 <= j < |es| ==> es[j].start != i
    requires forall c :: c in cs <==> ChunkFrom(es, i + 1, c)
    ensures forall c :: c in cs <==> ChunkFrom(es, i, c)
  {
    forall c ensures c in cs <==> ChunkFrom(es, i, c) {
      if ChunkFrom(es, i, c) {
        var j :| 0 <= j < |es| && 0 <= i <= es[j].start <= es[j].end && c == ChunkOf(es[j]);
        assert ChunkFrom(es, i + 1, c);
      }
    }
  }

  /** Decoding from a position no entity straddles reads back exactly the
      entities that start there or later. */
  lemma {:induction false} DecodeFrom(tokens: seq<string>, es: seq<Entity>, i: nat)
    requires WellPlaced(tokens, es)
    requires i <= |tokens| && Boundary(es, i)
    ensures forall c :: c in Decode(ToBilou(tokens, es), i) <==> ChunkFrom(es, i, c)
    decreases |tokens| - i, 1
  {
    if i == |tokens| {
      forall c ensures !ChunkFrom(es, i, c) {
        assert forall k :: 0 <= k < |es| ==> es[k].start < i;
      }
    } else if k :| 0 <= k < |es| && Covers(es[k], i) {
      DecodeFromCovered(tokens, es, k);
    } else {
      DecodeFromUncovered(tokens, es, i);
    }
  }

  /** `DecodeFrom` at the first token of an entity. */
  lemma {:induction false} DecodeFromCovered(tokens: seq<string>, es: seq<Entity>, k: nat)
    requires WellPlaced(tokens, es) && k < |es|
    requires Boundary(es, es[k].start)
    ensures forall c :: c in Decode(ToBilou(tokens, es), es[k].start) <==> ChunkFrom(es, es[k].start, c)
    decreases |tokens| - es[k].start, 0
  {
    var tags := ToBilou(tokens, es);
    CoveredStep(tokens, es, k);
    DecodeEntity(tokens, es, k);
    DecodeFrom(tokens, es, es[k].end);
    ChunksCovered(tokens, es, k, Decode(tags, es[k].start), Decode(tags, es[k].end));
  }

  /** `DecodeFrom` at a token no entity covers. */
  lemma {:induction false} DecodeFromUncovered(tokens: seq<string>, es: seq<Entity>, i: nat)
    requires WellPlaced(tokens, es)
    requires i < |tokens| && Boundary(es, i)
    requires forall k :: 0 <= k < |es| ==> !Covers(es[k], i)
    ensures forall c :: c in Decode(ToBilou(tokens, es), i) <==> ChunkFrom(es, i, c)
    decreases |tokens| - i, 0
  {
    var tags := ToBilou(tokens, es);
    DecodeSkip(tags, i);
    UncoveredStep(tokens, es, i);
    DecodeFrom(tokens, es, i + 1);
    ChunksUncovered(tokens, es, i, Decode(tags, i));
  }

  /** An `O` tag decodes to nothing. */
  lemma DecodeSkip(tags: seq<string>, i: nat)
    requires i < |tags| && tags[i] == "O"
    ensures Decode(tags, i) == Decode(tags, i + 1)
  {
    assert !HasPrefix(tags[i], 'U') && !HasPrefix(tags[i], 'B');
  }

  /** A token no entity covers is tagged `O`; no entity straddles the next
      position, and none starts at this one. */
  lemma UncoveredStep(tokens: seq<string>, es: seq<Entity>, i: nat)
    requires WellPlaced(tokens, es)
    requires i < |tokens| && Boundary(es, i)
    requires forall k :: 0 <= k < |es| ==> !Covers(es[k], i)
    ensures ToBilou(tokens, es)[i] == "O"
    ensures Boundary(es, i + 1)
    ensures forall j :: 0 <= j < |es| ==> es[j].start != i
  {
    forall j | 0 <= j < |es| ensures !(es[j].start < i + 1 < es[j].end) && es[j].start != i {
      assert !Covers(es[j], i);
    }
  }

  /** Decoding the tags of non-overlapping entities gives back exactly their
      ranges and label texts. */
  lemma DecodeToBilou(tokens: seq<string>, es: seq<Entity>)
    requires WellPlaced(tokens, es)
    ensures forall c :: c in Decode(ToBilou(tokens, es), 0) <==>
              exists k :: 0 <= k < |es| && c == ChunkOf(es[k])
  {
    DecodeFrom(tokens, es, 0);
    assert forall k :: 0 <= k < |es| ==> 0 <= es[k].start <= es[k].end;
  }
}

=== FILE: tag_encoder.dfy ===
/** `to_bilou`: one tag per token.  A one-token entity tags its token
    `U-<labels>`; a longer entity tags its first token `B-<labels>`, its last
    `L-<labels>` and those in between `I-<labels>`; a token no entity covers
    is tagged `O`.  `<labels>` is the entity's label set, sorted and joined
    with commas. */
module TagEncoder {
  import opened Text
  import opened SpanMatcher
  import opened OverlapResolver

  /** A label of a non-empty set that no other label precedes. */
  lemma {:induction false} LeastLabelOf(labels: set<string>) returns (m: string)
    requires labels != {}
    ensures m in labels
    ensures forall x :: x in labels ==> !StrLess(x, m)
    decreases labels
  {
    var y :| y in labels;
    var others := labels - {y};
    StrLessIrreflexive(y);
    if others == {} {
      m := y;
      forall x | x in labels ensures !StrLess(x, m) {
        assert x !in others;
      }
    } else {
      var m0 := LeastLabelOf(others);
      if StrLess(y, m0) {
        m := y;
        forall x | x in labels ensures !StrLess(x, m) {
          if x != y {
            assert x in others;
            StrLessTransitive(x, y, m0);
          }
        }
      } else {
        m := m0;
        forall x | x in labels ensures !StrLess(x, m) {
          if x != y {
            assert x in others;
          }
        }
      }
    }
  }

  /** Some label of a non-empty set is at least as small as every other. */
  lemma LeastLabelExists(labels: set<string>)
    requires labels != {}
    ensures exists m :: m in labels && forall x :: x in labels ==> !StrLess(x, m)
  {
    var m := LeastLabelOf(labels);
  }

  /** The least label of a non-empty set. */
  function LeastLabel(labels: set<string>): (m: string)
    requires labels != {}
    ensures m in labels
    ensures forall x :: x in labels && x != m ==> StrLess(m, x)
  {
    StrLessOrder();
    LeastLabelExists(labels);
    var m :| m in labels && forall x :: x in labels ==> !StrLess(x, m);
    m
  }

  /** The labels of a set in increasing order, each once. */
  function SortedLabels(labels: set<string>): (r: seq<string>)
    ensures |r| == |labels|
    ensures forall x :: x in r <==> x in labels
    ensures forall i, j :: 0 <= i < j < |r| ==> StrLess(r[i], r[j])
    decreases labels
  {
    if labels == {} then []
    else
      var m := LeastLabel(labels);
      var rest := SortedLabels(labels - {m});
      SortedCons(labels, m, rest);
      [m] + rest
  }

  /** The least label in front of the sorted others sorts the whole set. */
  lemma SortedCons(labels: set<string>, m: string, rest: seq<string>)
    requires m in labels
    requires forall x :: x in labels && x != m ==> StrLess(m, x)
    requires |rest| == |labels - {m}|
    requires forall x :: x in rest <==> x in labels - {m}
    requires forall i, j :: 0 <= i < j < |rest| ==> StrLess(rest[i], rest[j])
    ensures |[m] + rest| == |labels|
    ensures forall x :: x in [m] + rest <==> x in labels
    ensures forall i, j :: 0 <= i < j < |[m] + rest| ==> StrLess(([m] + rest)[i], ([m] + rest)[j])
  {
    var r := [m] + rest;
    assert labels == (labels - {m}) + {m};
    forall i, j | 0 <= i < j < |r| ensures StrLess(r[i], r[j]) {
      assert r[j] == rest[j - 1] && r[j] in rest;
      if i > 0 {
        assert r[i] == rest[i - 1];
      }
    }
  }

  /** Comma-joined text of a list of labels. */
  function CommaJoin(ls: seq<string>): (r: string)
    ensures (forall k :: 0 <= k < |ls| ==> IsWord(ls[k])) && |ls| > 0 ==> IsWord(r)
  {
    if |ls| == 0 then ""
    else if |ls| == 1 then ls[0]
    else ls[0] + "," + CommaJoin(ls[1..])
  }

  /** A label that can be read back out of a comma-joined text: non-empty
      and free of commas. */
  predicate Plain(l: string) {
    l != "" && ',' !in l
  }

  /** The position of the first comma of `s`, or `|s|` when there is none. */
  function FirstComma(s: string): (n: nat)
    ensures n <= |s|
    ensures forall p :: 0 <= p < n ==> s[p] != ','
    ensures n < |s| ==> s[n] == ','
  {
    if |s| == 0 || s[0] == ',' then 0 else 1 + FirstComma(s[1..])
  }

  /** A comma-free prefix moves the first comma by its own length. */
  lemma {:induction false} FirstCommaAfter(w: string, rest: string)
    requires ',' !in w
    ensures FirstComma(w + rest) == |w| + FirstComma(rest)
  {
    if |w| > 0 {
      assert w[0] in w;
      assert (w + rest)[0] == w[0] && (w + rest)[1..] == w[1..] + rest;
      assert ',' !in w[1..] by {
        forall p | 0 <= p < |w[1..]| ensures w[1..][p] != ',' {
          assert w[1..][p] in w;
        }
      }
      FirstCommaAfter(w[1..], rest);
    } else {
      assert w + rest == rest;
    }
  }

  /** How the comma-joined text of plain labels is laid out: empty exactly
      for no labels; otherwise the first label, then, if more follow, a comma
      and the text of the others. */
  lemma CommaJoinShape(ls: seq<string>)
    requires forall k :: 0 <= k < |ls| ==> Plain(ls[k])
    ensures |ls| == 0 <==> CommaJoin(ls) == ""
    ensures |ls| > 0 ==> FirstComma(CommaJoin(ls)) == |ls[0]| && CommaJoin(ls)[..|ls[0]|] == ls[0]
    ensures |ls| > 0 ==> (|ls| == 1 <==> |CommaJoin(ls)| == |ls[0]|)
    ensures |ls| > 1 ==> CommaJoin(ls)[|ls[0]| + 1..] == CommaJoin(ls[1..])
  {
    if |ls| == 1 {
      FirstCommaAfter(ls[0], "");
      assert ls[0] + "" == ls[0];
    } else if |ls| > 1 {
      assert Plain(ls[0]);
      FirstCommaAfter(ls[0], "," + CommaJoin(ls[1..]));
      assert CommaJoin(ls) == ls[0] + ("," + CommaJoin(ls[1..]));
    }
  }

  /** Plain labels are read back from their comma-joined text: two lists of
      plain labels with the same text are the same list. */
  lemma {:induction false} CommaJoinInjective(x: seq<string>, y: seq<string>)
    requires forall k :: 0 <= k < |x| ==> Plain(x[k])
    requires forall k :: 0 <= k < |y| ==> Plain(y[k])
    requires CommaJoin(x) == CommaJoin(y)
    ensures x == y
    decreases |x|
  {
    CommaJoinShape(x);
    CommaJoinShape(y);
    if |x| > 1 {
      CommaJoinInjective(x[1..], y[1..]);
      assert x == [x[0]] + x[1..];
      assert y == [y[0]] + y[1..];
    }
  }

  /** The text that stands for an entity's labels inside its tags: the labels
      sorted and joined with commas.  It contains no separator character when
      no label does, so the tag stays one word. */
  function LabelText(labels: set<string>): (r: string)
    ensures labels != {} && (forall l :: l in labels ==> IsWord(l)) ==> IsWord(r)
  {
    CommaJoin(SortedLabels(labels))
  }

  /** The label text determines the label set when every label is plain:
      two sets of plain labels with the same text are equal. */
  lemma LabelTextInjective(a: set<string>, b: set<string>)
    requires forall l :: l in a ==> Plain(l)
    requires forall l :: l in b ==> Plain(l)
    requires LabelText(a) == LabelText(b)
    ensures a == b
  {
    var ra, rb := SortedLabels(a), SortedLabels(b);
    assert forall k :: 0 <= k < |ra| ==> ra[k] in ra;
    assert forall k :: 0 <= k < |rb| ==> rb[k] in rb;
    CommaJoinInjective(ra, rb);
    forall l ensures l in a <==> l in b {
      assert l in ra <==> l in a;
    }
  }

  /** Entity `m` covers token `i`. */
  predicate Covers(m: Entity, i: int) {
    m.start <= i < m.end
  }

  /** The tag entity `m` gives token `i` of its range. */
  function SpanTag(m: Entity, i: int): (t: string)
    ensures |t| >= 2 && t[1] == '-' && t[2..] == LabelText(m.labels)
    ensures t[0] == 'U' || t[0] == 'B' || t[0] == 'I' || t[0] == 'L'
    ensures t[0] == 'U' <==> m.end - m.start == 1
  {
    var text := LabelText(m.labels);
    if m.end - m.start == 1 then "U-" + text
    else if i == m.start then "B-" + text
    else if i == m.end - 1 then "L-" + text
    else "I-" + text
  }

  /** The tag of token `i`: given by the first entity that covers it, `O`
      when none does. */
  function TagAt(es: seq<Entity>, i: int): (t: string)
    ensures t == "O" <==> forall k :: 0 <= k < |es| ==> !Covers(es[k], i)
  {
    if |es| == 0 then "O"
    else if Covers(es[0], i) then SpanTag(es[0], i)
    else
      var t := TagAt(es[1..], i);
      assert forall k :: 1 <= k < |es| ==> es[k] == es[1..][k - 1];
      t
  }

  /** `to_bilou`: one tag per token, `O` exactly on the tokens that no
      entity covers. */
  function ToBilou(tokens: seq<string>, es: seq<Entity>): (tags: seq<string>)
    ensures |tags| == |tokens|
    ensures forall i :: 0 <= i < |tokens| ==> (tags[i] == "O" <==> forall k :: 0 <= k < |es| ==> !Covers(es[k], i))
  {
    seq(|tokens|, i requires 0 <= i < |tokens| => TagAt(es, i))
  }

  /** Among entities that do not overlap, a covered token takes its tag from
      the entity that covers it. */
  lemma {:induction false} TagAtCovered(es: seq<Entity>, k: nat, i: int)
    requires Disjoint(es)
    requires k < |es| && Covers(es[k], i)
    ensures TagAt(es, i) == SpanTag(es[k], i)
    decreases |es|
  {
    if k > 0 {
      assert !Overlap(es[0], es[k]);
      assert Disjoint(es[1..]) by {
        forall a, b | 0 <= a < |es| - 1 && 0 <= b < |es| - 1 && a != b
          ensures !Overlap(es[1..][a], es[1..][b])
        {
          assert es[1..][a] == es[a + 1] && es[1..][b] == es[b + 1];
        }
      }
      TagAtCovered(es[1..], k - 1, i);
    }
  }

  /** Among entities that do not overlap, each token an entity covers is
      tagged by that entity. */
  lemma ToBilouCovered(tokens: seq<string>, es: seq<Entity>, k: nat, i: int)
    requires Disjoint(es)
    requires k < |es| && Covers(es[k], i) && 0 <= es[k].start && es[k].end <= |tokens|
    ensures 0 <= i < |tokens| && ToBilou(tokens, es)[i] == SpanTag(es[k], i)
  {
    TagAtCovered(es, k, i);
  }

  /** `ToBilouCovered` for every entity and token at once. */
  lemma ToBilouCoveredAll(tokens: seq<string>, es: seq<Entity>)
    requires Disjoint(es)
    requires forall k :: 0 <= k < |es| ==> 0 <= es[k].start && es[k].end <= |tokens|
    ensures forall k :: 0 <= k < |es| ==>
              forall i :: es[k].start <= i < es[k].end ==> ToBilou(tokens, es)[i] == SpanTag(es[k], i)
  {
    forall k | 0 <= k < |es|
      ensures forall i :: es[k].start <= i < es[k].end ==> ToBilou(tokens, es)[i] == SpanTag(es[k], i)
    {
      forall i | es[k].start <= i < es[k].end
        ensures ToBilou(tokens, es)[i] == SpanTag(es[k], i)
      {
        ToBilouCovered(tokens, es, k, i);
      }
    }
  }

  /** The tags an entity of a non-overlapping list leaves on its own tokens:
      `U-` alone for one token, otherwise `B-` first, `L-` last and `I-` on
      the `end - start - 2` tokens between, all carrying its label text. */
  lemma BilouShape(tokens: seq<string>, es: seq<Entity>, k: nat)
    requires Disjoint(es)
    requires k < |es| && 0 <= es[k].start < es[k].end <= |tokens|
    ensures var tags, m, text := ToBilou(tokens, es), es[k], LabelText(es[k].labels);
            && (m.end - m.start == 1 ==> tags[m.start] == "U-" + text)
            && (m.end - m.start >= 2 ==>
                  && tags[m.start] == "B-" + text
                  && tags[m.end - 1] == "L-" + text
                  && forall i :: m.start < i < m.end - 1 ==> tags[i] == "I-" + text)
  {
    var m := es[k];
    forall i | m.start <= i < m.end ensures ToBilou(tokens, es)[i] == SpanTag(m, i) {
      ToBilouCovered(tokens, es, k, i);
    }
  }
}

=== FILE: tagger.dfy ===
/** The whole tagger, as the demonstration at the end of the program runs
    it: build the phrase index from the gazetteer pairs, match the tokens,
    resolve overlaps, and encode the survivors as BILOU tags. */
module Tagger {
  import opened Text
  import opened PatternIndex
  import opened SpanMatcher
  import opened OverlapResolver
  import opened TagEncoder

  /** One sentence through the four stages.  The entities are word-aligned
      occurrences of gazetteer phrases carrying every label the gazetteers
      give them; no two share a token.  An aligned occurrence that beats
      every other aligned occurrence overlapping it is found, and one that is
      not found overlaps a found entity that beats it or has the same words.
      Each covered token is tagged by the entity that covers it, and exactly
      the uncovered tokens are `O`. */
  method TagSentence(data: seq<Entry>, tokens: seq<string>) returns (entities: seq<Entity>, tags: seq<string>)
    ensures forall k :: 0 <= k < |entities| ==>
              && IsAlignedMatch(CreateIndex(data), tokens, entities[k])
              && entities[k].span in Phrases(data)
              && entities[k].labels == LabelsOf(data, entities[k].span)
    ensures Disjoint(entities)
    ensures forall m :: IsAlignedMatch(CreateIndex(data), tokens, m) && Unchallenged(CreateIndex(data), tokens, m) ==>
              m in entities
    ensures forall m :: IsAlignedMatch(CreateIndex(data), tokens, m) && m !in entities ==>
              exists k :: 0 <= k < |entities| && Overlap(entities[k], m) && (Beats(entities[k], m) || Words(entities[k]) == Words(m))
    ensures |tags| == |tokens|
    ensures forall i :: 0 <= i < |tokens| ==> (tags[i] == "O" <==> forall k :: 0 <= k < |entities| ==> !Covers(entities[k], i))
    ensures forall k :: 0 <= k < |entities| ==> 0 <= entities[k].start < entities[k].end <= |tags|
    ensures forall k :: 0 <= k < |entities| ==>
              forall i :: entities[k].start <= i < entities[k].end ==> tags[i] == SpanTag(entities[k], i)
    ensures |tokens| == 0 ==> entities == [] && tags == []
  {
    var index := CreateIndex(data);
    entities := ResolvedMatches(index, tokens);
    forall k | 0 <= k < |entities|
      ensures IsAlignedMatch(index, tokens, entities[k])
      ensures entities[k].span in Phrases(data) && entities[k].labels == LabelsOf(data, entities[k].span)
    {
      assert entities[k] in entities;
    }
    tags := ToBilou(tokens, entities);
    ToBilouCoveredAll(tokens, entities);
  }

  /** The matches of `tokens` after overlap resolution: word-aligned
      occurrences of registered phrases, no two sharing a token.  An aligned
      occurrence that beats every other aligned occurrence overlapping it is
      kept; any aligned occurrence left out overlaps a kept one that beats it
      or has the same words. */
  method ResolvedMatches(index: Index, tokens: seq<string>) returns (entities: seq<Entity>)
    ensures forall m :: m in entities ==> IsAlignedMatch(index, tokens, m)
    ensures Disjoint(entities)
    ensures forall m :: IsAlignedMatch(index, tokens, m) && Unchallenged(index, tokens, m) ==> m in entities
    ensures forall m :: IsAlignedMatch(index, tokens, m) && m !in entities ==>
              exists k :: 0 <= k < |entities| && Overlap(entities[k], m) && (Beats(entities[k], m) || Words(entities[k]) == Words(m))
    ensures |tokens| == 0 ==> entities == []
  {
    var matches := Match(index, tokens);
    entities := Resolve(matches);
    forall m | m in entities ensures IsAlignedMatch(index, tokens, m) {
      var j :| 0 <= j < |matches| && matches[j] == m && Survives(matches, j);
      assert matches[j] in matches;
    }
    forall m | IsAlignedMatch(index, tokens, m) && Unchallenged(index, tokens, m) ensures m in entities {
      UnchallengedKept(index, tokens, matches, m);
    }
    forall m | IsAlignedMatch(index, tokens, m) && m !in entities
      ensures exists k :: 0 <= k < |entities| && Overlap(entities[k], m) && (Beats(entities[k], m) || Words(entities[k]) == Words(m))
    {
      LeftOutBlocked(index, tokens, matches, m);
    }
  }

  /** An aligned occurrence beating every other aligned occurrence that
      overlaps it survives the resolution of the matches. */
  lemma UnchallengedKept(index: Index, tokens: seq<string>, matches: seq<Entity>, m: Entity)
    requires forall x :: x in matches ==> IsAlignedMatch(index, tokens, x)
    requires forall s: nat, e: nat ::
               s < e <= |tokens| && Join(tokens[s..e]) != "" && Join(tokens[s..e]) in index ==>
               Entity(Join(tokens[s..e]), s, e, index[Join(tokens[s..e])]) in matches
    requires IsAlignedMatch(index, tokens, m) && Unchallenged(index, tokens, m)
    ensures m in Resolve(matches)
  {
    var i := MatchPosition(index, tokens, matches, m);
    forall j | 0 <= j < |matches| && Overlap(matches[j], matches[i]) ensures !Outranks(matches, j, i) {
      assert matches[j] in matches;
      if matches[j] != m {
        assert Beats(m, matches[j]);
        BeatsAsymmetric(m, matches[j]);
      } else {
        OutranksIrreflexive(matches, i);
      }
    }
  }

  /** An aligned occurrence that resolution drops overlaps a kept one that
      beats it or has the same words. */
  lemma LeftOutBlocked(index: Index, tokens: seq<string>, matches: seq<Entity>, m: Entity)
    requires forall s: nat, e: nat ::
               s < e <= |tokens| && Join(tokens[s..e]) != "" && Join(tokens[s..e]) in index ==>
               Entity(Join(tokens[s..e]), s, e, index[Join(tokens[s..e])]) in matches
    requires IsAlignedMatch(index, tokens, m) && m !in Resolve(matches)
    ensures var r := Resolve(matches);
            exists k :: 0 <= k < |r| && Overlap(r[k], m) && (Beats(r[k], m) || Words(r[k]) == Words(m))
  {
    var r := Resolve(matches);
    var i := MatchPosition(index, tokens, matches, m);
    var j :| 0 <= j < |matches| && matches[j] in r && Overlap(matches[j], matches[i]) && Outranks(matches, j, i);
    var k :| 0 <= k < |r| && r[k] == matches[j];
  }

  /** Every other aligned occurrence overlapping `m` is beaten by it. */
  ghost predicate Unchallenged(index: Index, tokens: seq<string>, m: Entity) {
    forall m' :: IsAlignedMatch(index, tokens, m') && m' != m && Overlap(m', m) ==> Beats(m, m')
  }

  /** The first position at which `Match` reports an aligned occurrence. */
  lemma MatchPosition(index: Index, tokens: seq<string>, matches: seq<Entity>, m: Entity) returns (i: nat)
    requires IsAlignedMatch(index, tokens, m)
    requires forall s: nat, e: nat ::
               s < e <= |tokens| && Join(tokens[s..e]) != "" && Join(tokens[s..e]) in index ==>
               Entity(Join(tokens[s..e]), s, e, index[Join(tokens[s..e])]) in matches
    ensures i < |matches| && matches[i] == m
    ensures forall j :: 0 <= j < i ==> matches[j] != m
  {
    var s, e := m.start, m.end;
    assert Entity(Join(tokens[s..e]), s, e, index[Join(tokens[s..e])]) == m;
    i := FirstPosition(matches, m);
  }

  /** The first position of an element in a sequence. */
  lemma {:induction false} FirstPosition(xs: seq<Entity>, x: Entity) returns (i: nat)
    requires x in xs
    ensures i < |xs| && xs[i] == x
    ensures forall j :: 0 <= j < i ==> xs[j] != x
  {
    if xs[0] == x {
      i := 0;
    } else {
      var i' := FirstPosition(xs[1..], x);
      i := i' + 1;
      forall j | 0 < j < i ensures xs[j] != x {
        assert xs[j] == xs[1..][j - 1];
      }
    }
  }

  /** The label text of a single label is the label itself, so a one-label
      entity tags its tokens `B-LOC`, `I-LOC` and so on. */
  lemma SingleLabelText(l: string)
    ensures LabelText({l}) == l
  {
    var r := SortedLabels({l});
    assert |r| == 1;
    assert r[0] in {l};
  }

  /** Two phrases from the same token, `a b` and `a b c`: the shorter one is
      dropped and the longer one is tagged `B-`, `I-`, `L-`. */
  lemma NestedPhrases(a: string, b: string, c: string, labels: set<string>)
    requires IsWord(a) && IsWord(b) && IsWord(c)
    ensures var short, long := Entity(a + " " + b, 0, 2, labels), Entity(a + " " + b + " " + c, 0, 3, labels);
            var text := LabelText(labels);
            && Resolve([short, long]) == [long]
            && ToBilou([a, b, c], [long]) == ["B-" + text, "I-" + text, "L-" + text]
  {
    var short, long := Entity(a + " " + b, 0, 2, labels), Entity(a + " " + b + " " + c, 0, 3, labels);
    assert Resolve([short, long]) == [long] by {
      SplitPair(a, b);
      SplitTriple(a, b, c);
      assert Outranks([short, long], 1, 0);
      ResolvePair(short, long);
    }
    BilouShape([a, b, c], [long], 0);
  }

  /** The "New York" / "New York City" case with the single label `LOC`. */
  lemma NewYorkCity()
    ensures var ny, nyc := Entity("New York", 0, 2, {"LOC"}), Entity("New York City", 0, 3, {"LOC"});
            && Resolve([ny, nyc]) == [nyc]
            && ToBilou(["New", "York", "City"], [nyc]) == ["B-LOC", "I-LOC", "L-LOC"]
  {
    assert "B-" + "LOC" == "B-LOC" && "I-" + "LOC" == "I-LOC" && "L-" + "LOC" == "L-LOC";
    assert "New York" == "New" + " " + "York";
    assert "New York City" == "New" + " " + "York" + " " + "City";
    assert IsWord("New") && IsWord("York") && IsWord("City");
    SingleLabelText("LOC");
    NestedPhrases("New", "York", "City", {"LOC"});
  }
}

=== FILE: text.dfy ===
/** Strings, word lists, the joined text of a token sequence, and the
    lexicographic order Python uses to compare strings and lists. */
module Text {

  /** The characters Python's `str.isspace` accepts; `str.split()` with no
      argument separates words at runs of them. */
  predicate IsSpace(c: char) {
    || c == ' '
    || ('\t' <= c <= '\r')
    || ('\U{1C}' <= c <= '\U{1F}')
    || c == '\U{85}' || c == '\U{A0}' || c == '\U{1680}'
    || ('\U{2000}' <= c <= '\U{200A}')
    || c == '\U{2028}' || c == '\U{2029}' || c == '\U{202F}'
    || c == '\U{205F}' || c == '\U{3000}'
  }

  /** A word: non-empty and free of separator characters. */
  predicate IsWord(w: string) {
    |w| > 0 && forall i :: 0 <= i < |w| ==> !IsSpace(w[i])
  }

  /** `' '.join(ws)`: the words with exactly one space between neighbours. */
  function Join(ws: seq<string>): string
  {
    if |ws| == 0 then ""
    else if |ws| == 1 then ws[0]
    else ws[0] + " " + Join(ws[1..])
  }

  /** Length of the run of non-separator characters that begins `s`. */
  function WordLength(s: string): (n: nat)
    ensures n <= |s|
    ensures forall i :: 0 <= i < n ==> !IsSpace(s[i])
    ensures n < |s| ==> IsSpace(s[n])
  {
    if |s| == 0 || IsSpace(s[0]) then 0 else 1 + WordLength(s[1..])
  }

  /** `s.split()`: the maximal runs of non-separator characters, in order. */
  function Split(s: string): (ws: seq<string>)
    ensures forall k :: 0 <= k < |ws| ==> IsWord(ws[k])
    decreases |s|
  {
    if |s| == 0 then []
    else if IsSpace(s[0]) then Split(s[1..])
    else
      var n := WordLength(s);
      [s[..n]] + Split(s[n..])
  }

  /** Splitting a separator-free word gives back the word alone. */
  lemma SplitWord(w: string)
    requires IsWord(w)
    ensures Split(w) == [w]
  {
    assert !IsSpace(w[0]);
    assert WordLength(w) == |w|;
    assert w[..|w|] == w;
    assert w[|w|..] == "";
  }

  /** Splitting undoes joining, as long as every token is a word. */
  lemma {:induction false} SplitJoin(ts: seq<string>)
    requires forall k :: 0 <= k < |ts| ==> IsWord(ts[k])
    ensures Split(Join(ts)) == ts
    decreases |ts|
  {
    if |ts| == 0 {
    } else if |ts| == 1 {
      SplitWord(ts[0]);
    } else {
      var t, rest := ts[0], Join(ts[1..]);
      var s := t + " " + rest;
      assert s == Join(ts);
      assert WordLength(s) == |t| by {
        assert forall i :: 0 <= i < |t| ==> s[i] == t[i];
        assert s[|t|] == ' ';
      }
      assert s[..|t|] == t;
      assert s[|t|..] == " " + rest;
      assert (" " + rest)[1..] == rest;
      SplitJoin(ts[1..]);
      assert ts == [t] + ts[1..];
    }
  }

  /** Joining two non-empty word lists puts one space between their texts. */
  lemma {:induction false} JoinAppend(a: seq<string>, b: seq<string>)
    requires |a| > 0 && |b| > 0
    ensures Join(a + b) == Join(a) + " " + Join(b)
    decreases |a|
  {
    if |a| == 1 {
      assert (a + b)[1..] == b;
    } else {
      assert (a + b)[1..] == a[1..] + b;
      JoinAppend(a[1..], b);
    }
  }

  /** Character offset at which token `i` starts in `Join(ts)`: the joined
      text of the tokens before it plus one separator.  For `i == |ts|` it is
      where a further token would start. */
  function TokenStart(ts: seq<string>, i: nat): nat
    requires i <= |ts|
  {
    if i == 0 then 0 else |Join(ts[..i])| + 1
  }

  /** Exclusive character offset at which token `i` ends in `Join(ts)`. */
  function TokenEnd(ts: seq<string>, i: nat): nat
    requires i < |ts|
  {
    TokenStart(ts, i) + |ts[i]|
  }

  /** The text of the first `e` tokens ends where token `e - 1` ends. */
  lemma JoinPrefixLength(ts: seq<string>, e: nat)
    requires 0 < e <= |ts|
    ensures |Join(ts[..e])| == TokenEnd(ts, e - 1)
  {
    if e > 1 {
      assert ts[..e] == ts[..e - 1] + [ts[e - 1]];
      JoinAppend(ts[..e - 1], [ts[e - 1]]);
    }
  }

  /** Consecutive tokens are exactly one character apart. */
  lemma TokenStartStep(ts: seq<string>, i: nat)
    requires i < |ts|
    ensures TokenStart(ts, i + 1) == TokenEnd(ts, i) + 1
  {
    JoinPrefixLength(ts, i + 1);
  }

  /** Token starts strictly increase, and a token ends before any later one starts. */
  lemma {:induction false} TokenStartMonotone(ts: seq<string>, i: nat, j: nat)
    requires i < j <= |ts|
    ensures TokenEnd(ts, i) < TokenStart(ts, j)
    ensures TokenStart(ts, i) < TokenStart(ts, j)
    decreases j - i
  {
    TokenStartStep(ts, i);
    if i + 1 < j {
      TokenStartMonotone(ts, i + 1, j);
    }
  }

  /** The offsets give the tokens back their order: an earlier end offset
      belongs to an earlier token, an equal end offset to the same token, and
      an earlier start offset to an earlier token. */
  lemma TokenIndexOrder(ts: seq<string>, i: nat, j: nat)
    requires i < |ts| && j < |ts|
    ensures TokenEnd(ts, i) < TokenEnd(ts, j) ==> i < j
    ensures TokenEnd(ts, i) == TokenEnd(ts, j) ==> i == j
    ensures TokenStart(ts, i) < TokenStart(ts, j) ==> i < j
  {
    if i < j {
      TokenStartMonotone(ts, i, j);
    } else if j < i {
      TokenStartMonotone(ts, j, i);
    }
  }

  /** The text of the first `e` tokens is a prefix of the whole text, and a
      space follows it when more tokens come. */
  lemma JoinPrefix(ts: seq<string>, e: nat)
    requires 0 < e <= |ts|
    ensures |Join(ts[..e])| <= |Join(ts)|
    ensures e < |ts| ==> |Join(ts[..e])| < |Join(ts)|
    ensures Join(ts)[..|Join(ts[..e])|] == Join(ts[..e])
    ensures e < |ts| ==> Join(ts)[|Join(ts[..e])|] == ' '
  {
    if e < |ts| {
      assert ts == ts[..e] + ts[e..];
      JoinAppend(ts[..e], ts[e..]);
    } else {
      assert ts[..e] == ts;
    }
  }

  /** The text from token `s` onwards is a suffix of the whole text. */
  lemma JoinSuffix(ts: seq<string>, s: nat)
    requires s < |ts|
    ensures TokenStart(ts, s) <= |Join(ts)|
    ensures Join(ts)[TokenStart(ts, s)..] == Join(ts[s..])
  {
    if s > 0 {
      assert ts == ts[..s] + ts[s..];
      JoinAppend(ts[..s], ts[s..]);
    } else {
      assert ts[s..] == ts;
    }
  }

  /** The characters from the start of token `s` to the end of token `e - 1`
      are the joined text of the tokens `s..e`. */
  lemma JoinSlice(ts: seq<string>, s: nat, e: nat)
    requires s < e <= |ts|
    ensures TokenStart(ts, s) <= TokenEnd(ts, e - 1) <= |Join(ts)|
    ensures Join(ts)[TokenStart(ts, s)..TokenEnd(ts, e - 1)] == Join(ts[s..e])
  {
    var u := ts[..e];
    JoinPrefix(ts, e);
    JoinPrefixLength(ts, e);
    JoinSuffix(u, s);
    assert u[..s] == ts[..s];
    assert TokenStart(u, s) == TokenStart(ts, s);
    assert u[s..] == ts[s..e];
  }

  /** Where each token sits in the joined text: its characters, the single
      space after it, and the total length. */
  lemma TokenLayout(ts: seq<string>, i: nat)
    requires i < |ts|
    ensures TokenEnd(ts, i) <= |Join(ts)|
    ensures Join(ts)[TokenStart(ts, i)..TokenEnd(ts, i)] == ts[i]
    ensures i + 1 < |ts| ==> TokenEnd(ts, i) < |Join(ts)|
    ensures i + 1 < |ts| ==> Join(ts)[TokenEnd(ts, i)] == ' '
    ensures i + 1 == |ts| ==> TokenEnd(ts, i) == |Join(ts)|
  {
    JoinSlice(ts, i, i + 1);
    assert ts[i..i + 1] == [ts[i]];
    JoinPrefix(ts, i + 1);
    JoinPrefixLength(ts, i + 1);
    if i + 1 == |ts| {
      assert ts[..i + 1] == ts;
    }
  }

  // ---------------------------------------------------------------------
  // Lexicographic order

  ghost predicate StrictTotalOrder<T(!new)>(less: (T, T) -> bool) {
    && (forall x, y :: less(x, y) ==> !less(y, x))
    && (forall x, y, z :: less(x, y) && less(y, z) ==> less(x, z))
    && (forall x, y :: x != y ==> less(x, y) || less(y, x))
  }

  /** Python's `<` on sequences: the first differing element decides, and a
      proper prefix is smaller. */
  predicate LexLess<T(==)>(a: seq<T>, b: seq<T>, less: (T, T) -> bool)
    decreases |a|
  {
    && |b| > 0
    && (|a| == 0 || less(a[0], b[0]) || (a[0] == b[0] && LexLess(a[1..], b[1..], less)))
  }

  lemma {:induction false} LexAsymmetric<T(!new)>(a: seq<T>, b: seq<T>, less: (T, T) -> bool)
    requires StrictTotalOrder(less)
    requires LexLess(a, b, less)
    ensures !LexLess(b, a, less)
    decreases |a|
  {
    if |a| > 0 && a[0] == b[0] && LexLess(a[1..], b[1..], less) {
      LexAsymmetric(a[1..], b[1..], less);
    }
  }

  lemma {:induction false} LexTransitive<T(!new)>(a: seq<T>, b: seq<T>, c: seq<T>, less: (T, T) -> bool)
    requires StrictTotalOrder(less)
    requires LexLess(a, b, less) && LexLess(b, c, less)
    ensures LexLess(a, c, less)
    decreases |a|
  {
    if |a| > 0 && a[0] == b[0] && b[0] == c[0] {
      LexTransitive(a[1..], b[1..], c[1..], less);
    }
  }

  lemma {:induction false} LexConnected<T(!new)>(a: seq<T>, b: seq<T>, less: (T, T) -> bool)
    requires StrictTotalOrder(less)
    requires a != b
    ensures LexLess(a, b, less) || LexLess(b, a, less)
    decreases |a|
  {
    if |a| > 0 && |b| > 0 && a[0] == b[0] {
      assert a == [a[0]] + a[1..] && b == [b[0]] + b[1..];
      LexConnected(a[1..], b[1..], less);
    }
  }

  /** The lexicographic extension of a strict total order is one. */
  lemma LexStrictTotal<T(!new)>(less: (T, T) -> bool)
    requires StrictTotalOrder(less)
    ensures forall a, b :: LexLess(a, b, less) ==> !LexLess(b, a, less)
    ensures forall a, b, c :: LexLess(a, b, less) && LexLess(b, c, less) ==> LexLess(a, c, less)
    ensures forall a: seq<T>, b: seq<T> :: a != b ==> LexLess(a, b, less) || LexLess(b, a, less)
  {
    forall a, b | LexLess(a, b, less) ensures !LexLess(b, a, less) {
      LexAsymmetric(a, b, less);
    }
    forall a, b, c | LexLess(a, b, less) && LexLess(b, c, less) ensures LexLess(a, c, less) {
      LexTransitive(a, b, c, less);
    }
    forall a: seq<T>, b: seq<T> | a != b ensures LexLess(a, b, less) || LexLess(b, a, less) {
      LexConnected(a, b, less);
    }
  }

  function CharLess(x: char, y: char): bool { x < y }

  /** Python's `<` on `str`: code point by code point. */
  predicate StrLess(a: string, b: string) {
    LexLess(a, b, CharLess)
  }

  /** Python's `<` on `list[str]`, as in `a.split() < b.split()`. */
  predicate WordsLess(a: seq<string>, b: seq<string>) {
    LexLess(a, b, StrLess)
  }

  /** No string is less than itself. */
  lemma {:induction false} StrLessIrreflexive(a: string)
    ensures !StrLess(a, a)
    decreases |a|
  {
    if |a| > 0 {
      StrLessIrreflexive(a[1..]);
    }
  }

  /** String comparison is transitive. */
  lemma StrLessTransitive(a: string, b: string, c: string)
    ensures StrLess(a, b) && StrLess(b, c) ==> StrLess(a, c)
  {
    if StrLess(a, b) && StrLess(b, c) {
      assert StrictTotalOrder(CharLess);
      LexTransitive(a, b, c, CharLess);
    }
  }

  lemma StrLessOrder()
    ensures StrictTotalOrder(StrLess)
  {
    assert StrictTotalOrder(CharLess);
    LexStrictTotal(CharLess);
  }

  lemma WordsLessOrder()
    ensures StrictTotalOrder(WordsLess)
  {
    StrLessOrder();
    LexStrictTotal(StrLess);
  }
}
